=== FILE: README.md ===
# crocoquant decision core in Dafny

A model of the pure decision logic of a small daily trading bot. The bot downloads close prices for a basket of tickers. It turns each (date, ticker) cell into a probability with one or more predictors and averages those into one probability per date. Two thresholds then turn that probability into buy and sell masks. An older stand-alone script builds entry and exit signals from a z-score with momentum and volatility filters, and places at most one market order per listed symbol and run, for a symbol with an entry or exit signal.

Price data are tables (`seq<seq<…>>`): rows are dates, columns are tickers. Floating point is modelled as exact `real`, and a NaN cell is `Option.None`.

| file | module | models |
|---|---|---|
| `wrappers.dfy` | `Wrappers` | `Option` (NaN / absent) and `Result` (raised errors) |
| `stats.dfy` | `Stats` | sums, means, clipping and row concatenation over reals |
| `frame.dfy` | `Frame` | table shape, positivity and the warm-up ("first k rows missing") structure |
| `mean_reversion.dfy` | `MeanReversion` | `predictors/mean_reversion.py` |
| `momentum.dfy` | `Momentum` | `predictors/momentum.py` |
| `bot.dfy` | `Bot` | `bot.py`: `load_config`, `run_predictors`, `decide` |
| `universe.dfy` | `Universe` | `universe.py`: `fetch_mw_top_n`, `build_universe` |
| `legacy_bot.dfy` | `LegacyBot` | `old/test.py`: `compute_signals`, `daily_run`, `main` |

Notes on what the code does:

- `run_predictors` is a plain, unweighted mean over every cell of every predictor on a date. That covers all tickers as well as all predictors.
- Live orders in `old/test.py` are unconditional market orders of `order_size` shares. `bot.py` hands off to a `broker` module that is not part of this model.
- Nothing validates the thresholds. `decide` compares against whatever values are configured, and `compute_signals` can mark one cell as both an entry and an exit (`LegacyBot.OverlappingThresholds`).
- The comment on the mean-reversion map ("-1 → 0, +1 → 1") describes the opposite of the code. Under the code, `z = -z_entry` gives 1 and `z = z_entry` gives 0. The value is clipped only from below, so it exceeds 1 once `z < -z_entry` (`MeanReversion.Prob`).

## Model

| member | source | states |
|---|---|---|
| MeanReversion.RollingMean | predictors/mean_reversion.py:4 | the rolling mean has the price's shape and is missing exactly on the first `lookback - 1` dates |
| MeanReversion.RollingMeanAt | predictors/mean_reversion.py:4 | once the window is full, each cell is the mean of that ticker's last `lookback` prices, today included |
| MeanReversion.ZScore | predictors/mean_reversion.py:4-6 | z exists exactly when the mean and the deviation exist and the deviation is non-zero, and then `z · std = price − mean` |
| MeanReversion.ZTable | predictors/mean_reversion.py:6 | the z table has the price's shape and is computed cell by cell |
| MeanReversion.Prob | predictors/mean_reversion.py:8-9 | p ≥ 0 always; missing z or z = 0 gives 0.5; z ≥ z_entry gives 0; below it `p · 2z_entry = z_entry − z`; z = −z_entry gives exactly 1; z < −z_entry gives p > 1 (no upper clip) |
| MeanReversion.Predict | predictors/mean_reversion.py:3-9 | the output has the price's dates × tickers shape, each cell is the map of its own z, and every cell is non-negative |
| MeanReversion.ProbNonIncreasing | predictors/mean_reversion.py:8 | for z_entry > 0 a larger z never gives a larger probability |
| MeanReversion.ProbRecoversZ | predictors/mean_reversion.py:8 | below z_entry the map is inverted by `z = z_entry (1 − 2p)` |
| MeanReversion.WarmUpNeutral | predictors/mean_reversion.py:4-9 | every cell of the first `lookback − 1` dates is exactly 0.5 |
| MeanReversion.ConstantWindowNeutral | predictors/mean_reversion.py:4-9 | a constant window puts the price on its mean, so the cell is 0.5 whether the deviation is zero (0/0) or not |
| Momentum.PctChange | predictors/momentum.py:31 | the return is missing exactly on the first `lookback` dates, and after them `price[t−lookback] · (mom + 1) = price[t]` |
| Momentum.Return | predictors/momentum.py:31 | the return `r` from a positive price satisfies `before · (r + 1) = after` |
| Momentum.ReturnExceeds | old/test.py:75-76 | from a positive price, the return exceeds a threshold `th` exactly when the later price exceeds `(1 + th)` times the earlier one |
| Momentum.PctChangeAt | predictors/momentum.py:31 | from date `lookback` on, each cell is the return from the price `lookback` dates earlier to today's price |
| Momentum.Prob | predictors/momentum.py:37-39 | 0 ≤ p ≤ 1; missing or zero return gives 0.5; return ≥ clip gives 1; return ≤ −clip gives 0; within ±clip `(p − 0.5) · 2clip = mom` |
| Momentum.Predict | predictors/momentum.py:18-39 | the output has the price's shape, lies in [0, 1], is exactly 0.5 on the first `lookback` dates, and maps each cell's own return |
| Momentum.ProbNonDecreasing | predictors/momentum.py:37 | for clip > 0 a larger return never gives a smaller probability |
| Momentum.ProbRecoversReturn | predictors/momentum.py:37 | within ±clip the return is recovered as `(2p − 1) · clip` |
| Bot.LoadConfig | bot.py:12-27 | an invalid `--mode` is the only error; CLI mode beats `MODE`, which beats the YAML value; no other key changes or appears |
| Bot.LoadConfigFollowsPrecedence | bot.py:15-25 | the loaded `mode` is the one the CLI-then-environment-then-YAML precedence selects, and is absent only when none supplies it |
| Bot.UncheckedEnvironmentModeGoesLive | bot.py:16-22 | any `MODE` text reaches the configuration unchecked, and all but "backtest" take the live branch |
| Bot.RunsBacktest | bot.py:75 | the backtest branch is taken exactly for the text "backtest"; a missing mode is an error |
| Bot.CombineAt | bot.py:54 | one date's value exists exactly when the date has cells, and it times the cell count is the sum of every predictor's row sum |
| Bot.Combine | bot.py:54 | one value per date, each the mean of all cells of all predictors on that date, taken over tickers and predictors alike |
| Bot.CombineWithin | bot.py:54 | the combined value lies between any lower and upper bound of the cells averaged |
| Bot.CombineNeutral | bot.py:54 | if every cell is 0.5, every combined value is 0.5 |
| Bot.CombineSingle | bot.py:46-54 | with one predictor over one ticker, the combined series is that predictor's column |
| Bot.CombineOne | bot.py:46-54 | one predictor table of `width` tickers combines into the mean of each row |
| Bot.RunPredictors | bot.py:44-54 | one value per date, present exactly when there is a ticker; times the ticker count it is the row sum of the mean-reversion output |
| Bot.RunPredictorsWarmUp | bot.py:44-54 | on the rolling mean's warm-up dates the combined probability is exactly 0.5 |
| Bot.Decide | bot.py:57-61 | masks have the input's length; buy is set exactly when p > buy_threshold, sell exactly when p < sell_threshold; NaN sets neither |
| Bot.DecideExclusive | bot.py:59-60 | when buy_threshold ≥ sell_threshold, no date is both buy and sell |
| Bot.DecideAppend | bot.py:59-61 | deciding is pointwise: the masks of a joined stretch of dates are the joined masks |
| Universe.Insert | universe.py:19 | inserting into a descending list keeps it descending, adds exactly the new row, and keeps equal capitalisations in input order |
| Universe.InsertStep | universe.py:19 | the recursive case of the insertion keeps order, contents and tie order |
| Universe.SortByMcapDesc | universe.py:19 | the result is non-increasing in capitalisation, a permutation of the input, and stable on ties |
| Universe.Candidates | universe.py:10-18 | the candidate rows are the first `n` tickers in list order, with the sector and capitalisation looked up for each |
| Universe.FetchTopN | universe.py:9-20 | at most `n` rows, exactly `min(n, len)`; ranked by non-increasing capitalisation; a stable permutation of the candidates |
| Universe.SkipStep | universe.py:36-37 | skipping a row of a full sector keeps the loop invariants and the greedy result |
| Universe.TakeStep | universe.py:38-39 | taking a row of a sector that is not full keeps every loop invariant (the basket stays capped, an order-preserving pick, and every skipped row's sector full) and the greedy result |
| Universe.CountsStep | universe.py:36-39 | incrementing the new entry's sector keeps the `sector_count` map equal to the per-sector counts of the basket |
| Universe.BuildUniverse | universe.py:30-39 | at most 12 entries; at most 4 per sector; an order-preserving pick of ticker and sector from the ranked rows; in a basket short of 12, every omitted row's sector is full; equal to the recursive greedy rule (loop invariant: the count map equals the per-sector count of the basket) |
| Universe.BuildUniverseFrom | universe.py:24-39 | the basket is the greedy pick over the top-200 ranking; it has at most 12 entries and at most 4 per sector, and each entry is one of the first 200 tickers with its own sector |
| LegacyBot.SignalsOf | old/test.py:75-84 | an entry holds exactly when z < −z_entry, momentum > mom_thresh and volatility < vol_thresh, all present; an exit exactly when z > z_exit; a missing input makes the comparison false |
| LegacyBot.ComputeSignals | old/test.py:69-84 | the masks have the price's shape; given the volatility's own warm-up (missing on the first `vol_window` dates), no entry before the rolling mean, the momentum return and the volatility exist, and no exit before the rolling mean does; from the mean's and momentum's warm-ups on, a cell enters exactly when its z against the mean of its last `lookback_ma` prices is below −z_entry, its `momentum_window`-date return exceeds mom_thresh and its volatility is below vol_thresh; from the mean's warm-up on, it exits exactly when that z exceeds z_exit |
| LegacyBot.SignalEntries | old/test.py:71-81 | past the mean and momentum warm-ups, every cell's entry is the conjunction of its own z, momentum and volatility conditions |
| LegacyBot.SignalExits | old/test.py:71-82 | past the mean's warm-up, every cell's exit is exactly its own z exceeding z_exit |
| LegacyBot.CellEntry | old/test.py:71-81 | one cell's entry is its z below −z_entry, its return above mom_thresh and its volatility below vol_thresh |
| LegacyBot.CellExit | old/test.py:71-82 | one cell's exit is its z above z_exit |
| LegacyBot.CellZScore | old/test.py:71-73 | once the window is full, a cell's z is its price against the mean of its last `lookback_ma` prices, over the deviation |
| LegacyBot.EntryExitExclusive | old/test.py:81-82 | when z_exit ≥ −z_entry, no cell of `compute_signals` is both an entry and an exit |
| LegacyBot.DefaultsExclusive | old/test.py:43-52 | the default strategy (a 20-date mean, z_entry = z_exit = 1.5) is runnable, and under it no cell is ever both an entry and an exit |
| LegacyBot.DefaultBot | old/test.py:54-63 | the live defaults: symbols `NVDA`, 10 000 cash, port 7497, client id 42, 100 shares per order, a run at 21:05 (a valid time of day), and the host from `IB_IP` when set, else 127.0.0.1 |
| LegacyBot.OverlappingThresholds | old/test.py:81-82 | for every configuration with z_exit < −z_entry, a cell with z halfway between z_exit and −z_entry and passing filters is both an entry and an exit, and the dispatch then buys |
| LegacyBot.Action | old/test.py:128-131 | BUY exactly on an entry; SELL exactly on an exit without an entry; nothing otherwise |
| LegacyBot.DailyOrders | old/test.py:127-131 | every order has `order_size` shares and the side its symbol's signals dictate; there are no more orders than listed symbols; the run completes exactly when every signal read is present, and otherwise the `KeyError` names the first unreadable symbol |
| LegacyBot.OrdersKeepListOrder | old/test.py:127-131 | the order symbols are a subsequence of the symbol list |
| LegacyBot.OrdersAtMostListed | old/test.py:127-131 | no symbol is ordered more often than it is listed |
| LegacyBot.OrdersCountSignalled | old/test.py:127-131 | in a completed run each symbol with an entry or exit gets one order per listing, and every other symbol none |
| LegacyBot.AbortKeepsEarlierOrders | old/test.py:127-131 | a run stopped by a `KeyError` has placed exactly the orders of the symbols before the unreadable one, which on their own run to completion |
| LegacyBot.AtMostOneOrderPerSymbol | old/test.py:127-131 | with distinct symbols, each symbol gets at most one order per run |
| LegacyBot.LastRow | old/test.py:124-125 | today's signals map exactly the column labels to the last row, and an empty table yields no row |
| LegacyBot.DailyRun | old/test.py:122-131 | given the volatility's warm-up, an empty price table yields no run; otherwise the run completes exactly when every configured symbol is a column, and each order is for a column at `order_size`; each order's side is BUY on that column's entry in today's (last) row of `compute_signals` and SELL on its exit without an entry; a completed run orders each column with an entry or exit today once per listing and no other column; a run stopped by a `KeyError` names the first configured symbol that is not a column and has placed exactly the orders of the completed run over the symbols before it |
| LegacyBot.RunOnSignals | old/test.py:124-131 | the same facts for given signal tables: no run on an empty table, completion exactly when every symbol is a column, and sides, counts and the orders placed before an abort that follow the tables' last row |
| LegacyBot.OrdersFollowLastRow | old/test.py:124-131 | the orders read from today's row have the sides of their columns' entry and exit, a completed run has the counts of that row, and an aborted run has those of the symbols before the first missing column |
| LegacyBot.AbortFollowsLastRow | old/test.py:124-131 | a run over today's row that stops on a `KeyError` names the first symbol that is not a column, and its orders are the completed run's over the symbols before it |
| LegacyBot.UnreadableIsMissing | old/test.py:127-128 | reading today's row by label, the first symbol whose signal cannot be read is the first symbol that is not a column |
| LegacyBot.OrderSides | old/test.py:124-131 | each order's side is the action of its column's entry and exit in the last row |
| LegacyBot.SignalledCounts | old/test.py:124-131 | a completed run orders each signalled column of the last row once per listing, and no other column |
| LegacyBot.RunReadsColumns | old/test.py:124-128 | reading today's row by label, the run completes exactly when every symbol is a column, and every order is for a column at `order_size` |
| LegacyBot.NextRun | old/test.py:116-118 | the target is at `run_at` today, pushed one day exactly when the current time of day is strictly past `run_at` |
| LegacyBot.WaitSeconds | old/test.py:119 | 0 ≤ wait < one day; wait = 0 exactly at `run_at`; now + wait is the target |
| LegacyBot.Advance | old/test.py:119 | advancing a clock by less than a day gives a valid clock exactly that many seconds later |
| LegacyBot.WaitLandsOnRunAt | old/test.py:115-119 | sleeping the wait wakes the bot on the target, at `run_at`, today exactly when `run_at` is not yet past |
| LegacyBot.Phases | old/test.py:153-157 | "backtest" runs only the backtest, "live" only live, and "both" the backtest and then live |
| LegacyBot.Main | old/test.py:137-157 | an unknown mode is rejected and no mode means backtest; `--z_entry` replaces the threshold whenever given, 0 included; `--symbols` replaces the symbols when non-empty; every other setting keeps its default; the phases run are those of the chosen mode |

## Left out

- Market data downloads (`yfinance`, `vbt.YFData`, `yf.Ticker(...).info`): the ticker-to-(sector, capitalisation) lookup is a function parameter, and price tables are inputs.
- The vectorbt backtest, its statistics and plotting: these are foreign library calls. `LegacyBot.Main` only records which phases run and with which settings.
- Broker interaction (`ib_insync` connect, `placeOrder`, the polling loop of `execute_trade`) and the `broker.execute_live` module imported by `bot.py:87`. The model stops at the list of orders.
- The endless `while True` of `daily_run`: one pass is modelled (`LegacyBot.NextRun`, `LegacyBot.WaitSeconds`, `LegacyBot.DailyRun`). The clock is naive local time without time zones or daylight-saving changes.
- Rolling standard deviation and the volatility of `pct_change`: these need square roots. They are table inputs (`Option<real>` cells). The volatility input is required to be missing on its first `vol_window` dates, as `pct_change().rolling(vol_window).std()` is. The rolling mean and `pct_change` are computed exactly.
- NaN prices: price cells are plain reals, so a table is assumed to have no missing price. `old/test.py` drops incomplete dates with `.dropna()`, but `get_data` in `bot.py:36-41` does not. There a NaN close would make that ticker's rolling mean, and so its cell, missing (0.5) for `lookback` dates; the model does not cover that case.
- MeanReversion.ZScore: a zero deviation is modelled as 0/0 (NaN). In exact arithmetic only a constant window has a zero deviation, and then the price equals its mean. The ±infinity that float rounding could produce is not modelled.
- IEEE float effects in general (rounding, infinities from zero prices): prices are required positive, and `clip` and `z_entry` are required positive.
- `predictors/__init__.py`: reflection-based discovery of predictor modules. `bot.py` wires in mean reversion directly, and `Bot.RunPredictors` models that.
- YAML reading and writing (`load_universe`, `yaml.safe_dump`, the config file) and argparse itself: only the override and choice rules are modelled. The YAML document is a map from key to scalar.
- pandas index alignment in `pd.concat(axis=1)`: all predictor tables are required to share the price's dates, as they do in `bot.py`. Duplicate column labels in `old/test.py` are excluded (`LegacyBot.LastRow` requires distinct labels).
- A missing `sector` or `marketCap` in the ticker info (a `KeyError` in the source): the lookup is total.

=== FILE: bot.dfy ===
/** The decision core of the daily bot: configuration precedence, the
    aggregation of predictor tables into one probability per date, and the
    two-threshold decision that turns it into buy and sell masks. */
module Bot {
  import opened Wrappers
  import opened Frame
  import Stats
  import MeanReversion

  // ---------------------------------------------------------------------
  // Configuration: YAML values overridden by the environment and the CLI
  // ---------------------------------------------------------------------

  /** A scalar of the YAML configuration document. */
  datatype Value = Text(text: string) | Number(number: real) | Flag(flag: bool)

  type Config = map<string, Value>

  datatype ConfigError = InvalidModeChoice(given: string)

  /** The only values argparse accepts for `--mode`. */
  const CliModes: set<string> := {"backtest", "live"}

  /** The configuration after the environment's `MODE` variable, if set,
      has replaced `mode`; the value is copied without any check. */
  function WithEnv(cfg: Config, env: map<string, string>): Config
  {
    if "MODE" in env then cfg["mode" := Text(env["MODE"])] else cfg
  }

  /** `load_config`: the YAML document, then the environment override, then
      the `--mode` flag, which argparse rejects unless it is a listed
      choice. */
  function LoadConfig(yaml: Config, env: map<string, string>, cliMode: Option<string>): (r: Result<Config, ConfigError>)
    ensures r.Err? <==> cliMode.Some? && cliMode.value !in CliModes
    ensures r.Ok? ==> forall k :: k in yaml && k != "mode" ==> k in r.value && r.value[k] == yaml[k]
    ensures r.Ok? ==> forall k :: k in r.value && k != "mode" ==> k in yaml
    ensures r.Ok? && cliMode.Some? ==> "mode" in r.value && r.value["mode"] == Text(cliMode.value)
    ensures r.Ok? && cliMode.None? && "MODE" in env ==> "mode" in r.value && r.value["mode"] == Text(env["MODE"])
    ensures r.Ok? && cliMode.None? && "MODE" !in env ==> r.value == yaml
  {
    var cfg := WithEnv(yaml, env);
    match cliMode
    case None => Ok(cfg)
    case Some(m) =>
      if m in CliModes then Ok(cfg["mode" := Text(m)]) else Err(InvalidModeChoice(m))
  }

  /** The mode `main` ends up in: the CLI flag, else the environment, else
      the YAML value, else none. A reference statement of the precedence. */
  function EffectiveMode(yaml: Config, env: map<string, string>, cliMode: Option<string>): Option<Value>
  {
    if cliMode.Some? then Some(Text(cliMode.value))
    else if "MODE" in env then Some(Text(env["MODE"]))
    else if "mode" in yaml then Some(yaml["mode"])
    else None
  }

  /** `main` runs the backtest only for the exact text "backtest" and goes
      live for anything else; a configuration without `mode` raises. */
  function RunsBacktest(cfg: Config): (r: Option<bool>)
    ensures r.None? <==> "mode" !in cfg
    ensures r == Some(true) <==> "mode" in cfg && cfg["mode"] == Text("backtest")
  {
    if "mode" !in cfg then None else Some(cfg["mode"] == Text("backtest"))
  }

  /** Whenever `load_config` succeeds, its `mode` is the one the precedence
      rule selects. */
  lemma LoadConfigFollowsPrecedence(yaml: Config, env: map<string, string>, cliMode: Option<string>)
    requires LoadConfig(yaml, env, cliMode).Ok?
    ensures var cfg := LoadConfig(yaml, env, cliMode).value;
      ("mode" in cfg <==> EffectiveMode(yaml, env, cliMode).Some?)
      && ("mode" in cfg ==> EffectiveMode(yaml, env, cliMode) == Some(cfg["mode"]))
  {
  }

  /** The environment is not checked against the CLI choices: any text in
      `MODE` reaches the configuration, and all but "backtest" go live. */
  lemma UncheckedEnvironmentModeGoesLive(yaml: Config, mode: string)
    requires mode != "backtest"
    ensures var r := LoadConfig(yaml, map["MODE" := mode], None);
      r.Ok? && r.value["mode"] == Text(mode) && RunsBacktest(r.value) == Some(false)
  {
  }

  // ---------------------------------------------------------------------
  // Aggregation: one probability per date from every predictor and ticker
  // ---------------------------------------------------------------------

  /** The rows the predictors produced for date `d`, in predictor order. */
  function RowsAt(preds: seq<Table<real>>, dates: nat, d: nat): (rows: seq<seq<real>>)
    requires forall k :: 0 <= k < |preds| ==> |preds[k]| == dates
    requires d < dates
    ensures |rows| == |preds|
    ensures forall k :: 0 <= k < |preds| ==> rows[k] == preds[k][d]
  {
    seq(|preds|, k requires 0 <= k < |preds| => preds[k][d])
  }

  /** The row mean of the column-wise concatenation on date `d`: missing
      (NaN) when the date has no cells at all. */
  function CombineAt(preds: seq<Table<real>>, dates: nat, d: nat): (c: Option<real>)
    requires forall k :: 0 <= k < |preds| ==> |preds[k]| == dates
    requires d < dates
    ensures c.Some? <==> Stats.Cells(RowsAt(preds, dates, d)) > 0
    ensures c.Some? ==> c.value * (Stats.Cells(RowsAt(preds, dates, d)) as real)
                        == Stats.SumOfSums(RowsAt(preds, dates, d))
  {
    var rows := RowsAt(preds, dates, d);
    var cells := Stats.Flatten(rows);
    Stats.FlattenCells(rows);
    Stats.FlattenSum(rows);
    if |cells| == 0 then None else Some(Stats.Mean(cells))
  }

  /** `pd.concat(preds, axis=1).mean(axis=1)`: for each date, the plain
      mean of every cell of every predictor's table on that date, across
      tickers and predictors alike. All tables share the price's dates;
      concatenating no tables at all raises. */
  function Combine(preds: seq<Table<real>>, dates: nat): (c: seq<Option<real>>)
    requires |preds| > 0
    requires forall k :: 0 <= k < |preds| ==> |preds[k]| == dates
    ensures |c| == dates
    ensures forall d :: 0 <= d < dates ==> (c[d].Some? <==> Stats.Cells(RowsAt(preds, dates, d)) > 0)
    ensures forall d :: 0 <= d < dates && c[d].Some? ==>
      c[d].value * (Stats.Cells(RowsAt(preds, dates, d)) as real) == Stats.SumOfSums(RowsAt(preds, dates, d))
  {
    seq(dates, d requires 0 <= d < dates => CombineAt(preds, dates, d))
  }

  /** The combined value lies between any bounds of the cells averaged. */
  lemma CombineWithin(preds: seq<Table<real>>, dates: nat, lo: real, hi: real)
    requires |preds| > 0
    requires forall k :: 0 <= k < |preds| ==> |preds[k]| == dates
    requires forall k, d :: 0 <= k < |preds| && 0 <= d < dates ==> Stats.AllWithin(preds[k][d], lo, hi)
    ensures var c := Combine(preds, dates);
      forall d :: 0 <= d < dates && c[d].Some? ==> lo <= c[d].value <= hi
  {
    var c := Combine(preds, dates);
    forall d | 0 <= d < dates && c[d].Some? ensures lo <= c[d].value <= hi {
      var rows := RowsAt(preds, dates, d);
      Stats.FlattenWithin(rows, lo, hi);
      assert c[d] == CombineAt(preds, dates, d);
      Stats.MeanWithin(Stats.Flatten(rows), lo, hi);
    }
  }

  /** If every cell is the neutral 0.5, so is every combined value. */
  lemma CombineNeutral(preds: seq<Table<real>>, dates: nat)
    requires |preds| > 0
    requires forall k :: 0 <= k < |preds| ==> |preds[k]| == dates
    requires forall k, d :: 0 <= k < |preds| && 0 <= d < dates ==> Stats.AllWithin(preds[k][d], 0.5, 0.5)
    ensures var c := Combine(preds, dates);
      forall d :: 0 <= d < dates && c[d].Some? ==> c[d].value == 0.5
  {
    CombineWithin(preds, dates, 0.5, 0.5);
  }

  /** One predictor over one ticker: the combined series is that
      predictor's column. */
  lemma CombineSingle(t: Table<real>)
    requires Rect(t, 1)
    ensures var c := Combine([t], |t|);
      forall d :: 0 <= d < |t| ==> c[d] == Some(t[d][0])
  {
    var c := Combine([t], |t|);
    forall d | 0 <= d < |t| ensures c[d] == Some(t[d][0]) {
      var rows := RowsAt([t], |t|, d);
      assert rows == [t[d]];
      assert Stats.Cells(rows) == 1;
      assert Stats.SumOfSums(rows[1..]) == 0.0;
      assert Stats.Sum(t[d][1..]) == 0.0;
      assert c[d].value * 1.0 == t[d][0];
    }
  }

  /** `run_predictors`: the one predictor wired in today, mean reversion,
      averaged over the tickers of each date. */
  function RunPredictors(price: Table<real>, width: nat, ma: Table<Option<real>>, sd: Table<Option<real>>,
                         zEntry: real): (c: seq<Option<real>>)
    requires Rect(price, width) && SameShape(ma, price) && SameShape(sd, price)
    requires zEntry > 0.0
    ensures |c| == |price|
    ensures forall d :: 0 <= d < |price| ==> (c[d].Some? <==> width > 0)
    ensures forall d :: 0 <= d < |price| && c[d].Some? ==>
      c[d].value * (width as real) == Stats.Sum(MeanReversion.Predict(price, ma, sd, zEntry)[d])
  {
    var p := MeanReversion.Predict(price, ma, sd, zEntry);
    CombineOne(p, width);
    Combine([p], |p|)
  }

  /** A single table of `width` tickers combines into the mean of each of
      its rows. */
  lemma CombineOne(p: Table<real>, width: nat)
    requires Rect(p, width)
    ensures var c := Combine([p], |p|);
      forall d :: 0 <= d < |p| ==>
        (c[d].Some? <==> width > 0) && (c[d].Some? ==> c[d].value * (width as real) == Stats.Sum(p[d]))
  {
    var c := Combine([p], |p|);
    forall d | 0 <= d < |p|
      ensures (c[d].Some? <==> width > 0) && (c[d].Some? ==> c[d].value * (width as real) == Stats.Sum(p[d]))
    {
      assert RowsAt([p], |p|, d) == [p[d]];
      Stats.SingleRow(p[d]);
      Stats.SingleRowSum(p[d]);
    }
  }

  /** On the warm-up dates of the rolling mean every cell is neutral, so the
      combined probability is exactly 0.5. */
  lemma RunPredictorsWarmUp(price: Table<real>, width: nat, L: nat, sd: Table<Option<real>>, zEntry: real)
    requires Rect(price, width) && width > 0 && L >= 1
    requires SameShape(sd, price) && zEntry > 0.0
    ensures var c := RunPredictors(price, width, MeanReversion.RollingMean(price, width, L), sd, zEntry);
      forall d :: 0 <= d < |price| && d < L - 1 ==> c[d] == Some(0.5)
  {
    var ma := MeanReversion.RollingMean(price, width, L);
    var p := MeanReversion.Predict(price, ma, sd, zEntry);
    MeanReversion.WarmUpNeutral(price, width, L, sd, zEntry);
    var c := RunPredictors(price, width, ma, sd, zEntry);
    assert c == Combine([p], |price|);
    forall d | 0 <= d < |price| && d < L - 1 ensures c[d] == Some(0.5) {
      var rows := RowsAt([p], |price|, d);
      assert rows == [p[d]];
      Stats.FlattenWithin(rows, 0.5, 0.5);
      assert c[d] == CombineAt([p], |price|, d);
      Stats.FlattenCells(rows);
      Stats.MeanWithin(Stats.Flatten(rows), 0.5, 0.5);
    }
  }

  // ---------------------------------------------------------------------
  // Decision: strict two-threshold masks
  // ---------------------------------------------------------------------

  datatype Masks = Masks(buy: seq<bool>, sell: seq<bool>)

  /** `decide`: the buy and sell masks, date by date. */
  function Decide(proba: seq<Option<real>>, buyThreshold: real, sellThreshold: real): (m: Masks)
    ensures |m.buy| == |proba| && |m.sell| == |proba|
    ensures forall d :: 0 <= d < |proba| ==> (m.buy[d] <==> proba[d].Some? && proba[d].value > buyThreshold)
    ensures forall d :: 0 <= d < |proba| ==> (m.sell[d] <==> proba[d].Some? && proba[d].value < sellThreshold)
  {
    Masks(seq(|proba|, d requires 0 <= d < |proba| => Greater(proba[d], buyThreshold)),
          seq(|proba|, d requires 0 <= d < |proba| => Less(proba[d], sellThreshold)))
  }

  /** With `buy_threshold >= sell_threshold` no date is both a buy and a
      sell; a value equal to a threshold sets neither mask of that side. */
  lemma DecideExclusive(proba: seq<Option<real>>, buyThreshold: real, sellThreshold: real)
    requires buyThreshold >= sellThreshold
    ensures var m := Decide(proba, buyThreshold, sellThreshold);
      forall d :: 0 <= d < |proba| ==> !(m.buy[d] && m.sell[d])
  {
  }

  /** `decide` is pointwise: deciding two stretches of dates separately and
      joining the masks is the same as deciding the joined stretch. */
  lemma DecideAppend(a: seq<Option<real>>, b: seq<Option<real>>, buyThreshold: real, sellThreshold: real)
    ensures var ma := Decide(a, buyThreshold, sellThreshold);
      var mb := Decide(b, buyThreshold, sellThreshold);
      Decide(a + b, buyThreshold, sellThreshold) == Masks(ma.buy + mb.buy, ma.sell + mb.sell)
  {
  }
}

=== FILE: frame.dfy ===
/** Date-by-ticker tables: row `t` is the `t`-th date, column `j` the `j`-th
    ticker, as in the price DataFrames of the bot. */
module Frame {
  import opened Wrappers

  type Table<T> = seq<seq<T>>

  /** Every row has exactly `width` cells. */
  predicate Rect<T>(t: Table<T>, width: nat)
  {
    forall i :: 0 <= i < |t| ==> |t[i]| == width
  }

  /** `a` and `b` have the same dates and the same tickers on every date. */
  predicate SameShape<A, B>(a: Table<A>, b: Table<B>)
  {
    |a| == |b| && forall i :: 0 <= i < |a| ==> |a[i]| == |b[i]|
  }

  /** The warm-up structure of a rolling or shifted column: every cell in
      the first `k` rows is missing. */
  predicate MissingBefore<T>(t: Table<Option<T>>, k: nat)
  {
    forall i, j :: 0 <= i < |t| && i < k && 0 <= j < |t[i]| ==> t[i][j].None?
  }

  /** Every cell is a strictly positive price. */
  predicate Positive(t: Table<real>)
  {
    forall i, j :: 0 <= i < |t| && 0 <= j < |t[i]| ==> t[i][j] > 0.0
  }

  /** Probability given to a cell that has no value (NaN filled with 0.5). */
  const Neutral: real := 0.5

  /** `x > bound` on a cell; NaN compares false. */
  predicate Greater(x: Option<real>, bound: real)
  {
    x.Some? && x.value > bound
  }

  /** `x < bound` on a cell; NaN compares false. */
  predicate Less(x: Option<real>, bound: real)
  {
    x.Some? && x.value < bound
  }
}

=== FILE: legacy_bot.dfy ===
/** The earlier stand-alone bot: entry and exit signals from a z-score with
    momentum and volatility filters, one market order per symbol and run,
    the wait until the daily run time, and the command-line overrides. */
module LegacyBot {
  import opened Wrappers
  import opened Frame
  import Stats
  import MeanReversion
  import Momentum

  // ---------------------------------------------------------------------
  // Configuration
  // ---------------------------------------------------------------------

  datatype StrategyConfig = StrategyConfig(
    lookbackMa: nat,       // rolling window of the mean and deviation
    zEntry: real,          // go long when z < -zEntry
    zExit: real,           // exit when z > zExit
    momentumWindow: nat,   // lookback of the momentum filter
    momThresh: real,       // the return over that window must exceed this
    volWindow: nat,        // lookback of the volatility cap
    volThresh: real)       // the daily deviation must stay below this

  const DefaultStrategy: StrategyConfig := StrategyConfig(20, 1.5, 1.5, 5, -0.01, 20, 0.05)

  const SecondsPerDay: real := 86400.0

  datatype BotConfig = BotConfig(
    symbols: seq<string>,
    cash: real,
    ibHost: string,
    ibPort: int,
    ibClientId: int,
    orderSize: int,
    runAt: real)           // seconds after midnight, local time

  /** The live-trading defaults; the host comes from `IB_IP` when it is set. */
  function DefaultBot(ibIp: Option<string>): (b: BotConfig)
    ensures b.symbols == ["NVDA"] && b.cash == 10000.0 && b.orderSize == 100
    ensures b.ibPort == 7497 && b.ibClientId == 42
    ensures b.ibHost == (if ibIp.Some? then ibIp.value else "127.0.0.1")
    ensures 0.0 <= b.runAt < SecondsPerDay && b.runAt / 60.0 == 21.0 * 60.0 + 5.0
  {
    BotConfig(["NVDA"], 10000.0, ibIp.GetOr("127.0.0.1"), 7497, 42, 100, 21.0 * 3600.0 + 5.0 * 60.0)
  }

  // ---------------------------------------------------------------------
  // Signals
  // ---------------------------------------------------------------------

  datatype Signals = Signals(entries: Table<bool>, exits: Table<bool>)

  /** The boolean layer of `compute_signals` over given z-score, momentum and
      volatility tables: an entry needs all three conditions, an exit only
      the z-score; a missing input fails its comparison, so `fillna(False)`
      changes nothing. */
  function SignalsOf(z: Table<Option<real>>, mom: Table<Option<real>>, vol: Table<Option<real>>,
                     cfg: StrategyConfig): (s: Signals)
    requires SameShape(mom, z) && SameShape(vol, z)
    ensures SameShape(s.entries, z) && SameShape(s.exits, z)
    ensures forall t, j :: 0 <= t < |z| && 0 <= j < |z[t]| ==>
      (s.entries[t][j] <==> z[t][j].Some? && mom[t][j].Some? && vol[t][j].Some?
                            && z[t][j].value < -cfg.zEntry && mom[t][j].value > cfg.momThresh
                            && vol[t][j].value < cfg.volThresh)
    ensures forall t, j :: 0 <= t < |z| && 0 <= j < |z[t]| ==>
      (s.exits[t][j] <==> z[t][j].Some? && z[t][j].value > cfg.zExit)
  {
    Signals(
      seq(|z|, t requires 0 <= t < |z| =>
        seq(|z[t]|, j requires 0 <= j < |z[t]| =>
          Less(z[t][j], -cfg.zEntry) && Greater(mom[t][j], cfg.momThresh) && Less(vol[t][j], cfg.volThresh))),
      seq(|z|, t requires 0 <= t < |z| =>
        seq(|z[t]|, j requires 0 <= j < |z[t]| => Greater(z[t][j], cfg.zExit))))
  }

  /** `compute_signals(close, cfg)`: the z-score against the exact rolling
      mean (deviation supplied), the `momentum_window`-day return, and the
      supplied volatility. The volatility is the rolling deviation of the
      daily return, so it is missing on the first `vol_window` dates. No
      entry or exit fires before the rolling mean exists, and no entry
      before the momentum return and the volatility do. */
  function ComputeSignals(close: Table<real>, width: nat, sd: Table<Option<real>>, vol: Table<Option<real>>,
                          cfg: StrategyConfig): (s: Signals)
    requires Rect(close, width) && Positive(close)
    requires SameShape(sd, close) && SameShape(vol, close) && MissingBefore(vol, cfg.volWindow)
    requires cfg.lookbackMa >= 1
    ensures SameShape(s.entries, close) && SameShape(s.exits, close)
    ensures forall t, j :: 0 <= t < |close| && 0 <= j < width
                           && (t < cfg.lookbackMa - 1 || t < cfg.momentumWindow || t < cfg.volWindow) ==>
      !s.entries[t][j]
    ensures forall t, j :: 0 <= t < |close| && 0 <= j < width && t < cfg.lookbackMa - 1 ==> !s.exits[t][j]
    ensures forall t, j {:trigger CellZ(close, width, sd, cfg.lookbackMa, t, j)} ::
      cfg.lookbackMa - 1 <= t < |close| && cfg.momentumWindow <= t && 0 <= j < width ==>
      (s.entries[t][j] <==> Less(CellZ(close, width, sd, cfg.lookbackMa, t, j), -cfg.zEntry)
                            && Momentum.Return(close[t][j], close[t - cfg.momentumWindow][j]) > cfg.momThresh
                            && Less(vol[t][j], cfg.volThresh))
    ensures forall t, j {:trigger CellZ(close, width, sd, cfg.lookbackMa, t, j)} ::
      cfg.lookbackMa - 1 <= t < |close| && 0 <= j < width ==>
      (s.exits[t][j] <==> Greater(CellZ(close, width, sd, cfg.lookbackMa, t, j), cfg.zExit))
  {
    var ma := MeanReversion.RollingMean(close, width, cfg.lookbackMa);
    var z := MeanReversion.ZTable(close, ma, sd);
    var mom := Momentum.PctChange(close, width, cfg.momentumWindow);
    SignalEntries(close, width, sd, vol, cfg);
    SignalExits(close, width, sd, vol, cfg);
    SignalsOf(z, mom, vol, cfg)
  }

  /** The z-score of one cell once its window is full: the price against the
      mean of its last `L` prices, over the supplied deviation. */
  function CellZ(close: Table<real>, width: nat, sd: Table<Option<real>>, L: nat, t: nat, j: nat): Option<real>
    requires Rect(close, width) && SameShape(sd, close)
    requires 1 <= L <= t + 1 && t < |close| && j < width
  {
    MeanReversion.ZScore(close[t][j], Some(Stats.Mean(MeanReversion.Window(close, width, j, t, L))), sd[t][j])
  }

  /** After the mean, momentum and volatility warm-ups, `compute_signals`
      enters on a cell exactly when its own z-score is below `-z_entry`, its
      price rose by more than `mom_thresh` over `momentum_window` dates and
      its volatility is below `vol_thresh`. */
  lemma SignalEntries(close: Table<real>, width: nat, sd: Table<Option<real>>, vol: Table<Option<real>>,
                      cfg: StrategyConfig)
    requires Rect(close, width) && Positive(close)
    requires SameShape(sd, close) && SameShape(vol, close)
    requires cfg.lookbackMa >= 1
    ensures var s := SignalsOf(MeanReversion.ZTable(close, MeanReversion.RollingMean(close, width, cfg.lookbackMa), sd),
                               Momentum.PctChange(close, width, cfg.momentumWindow), vol, cfg);
      forall t, j :: cfg.lookbackMa - 1 <= t < |close| && cfg.momentumWindow <= t && 0 <= j < width ==>
        (s.entries[t][j] <==> Less(CellZ(close, width, sd, cfg.lookbackMa, t, j), -cfg.zEntry)
                              && Momentum.Return(close[t][j], close[t - cfg.momentumWindow][j]) > cfg.momThresh
                              && Less(vol[t][j], cfg.volThresh))
  {
    forall t, j | cfg.lookbackMa - 1 <= t < |close| && cfg.momentumWindow <= t && 0 <= j < width {
      CellEntry(close, width, sd, vol, cfg, t, j);
    }
  }

  /** Once the mean's window is full, `compute_signals` exits on a cell
      exactly when its own z-score is above `z_exit`. */
  lemma SignalExits(close: Table<real>, width: nat, sd: Table<Option<real>>, vol: Table<Option<real>>,
                    cfg: StrategyConfig)
    requires Rect(close, width) && Positive(close)
    requires SameShape(sd, close) && SameShape(vol, close)
    requires cfg.lookbackMa >= 1
    ensures var s := SignalsOf(MeanReversion.ZTable(close, MeanReversion.RollingMean(close, width, cfg.lookbackMa), sd),
                               Momentum.PctChange(close, width, cfg.momentumWindow), vol, cfg);
      forall t, j :: cfg.lookbackMa - 1 <= t < |close| && 0 <= j < width ==>
        (s.exits[t][j] <==> Greater(CellZ(close, width, sd, cfg.lookbackMa, t, j), cfg.zExit))
  {
    forall t, j | cfg.lookbackMa - 1 <= t < |close| && 0 <= j < width {
      CellExit(close, width, sd, vol, cfg, t, j);
    }
  }

  /** The entry rule on one cell past the mean and momentum warm-ups. */
  lemma CellEntry(close: Table<real>, width: nat, sd: Table<Option<real>>, vol: Table<Option<real>>,
                  cfg: StrategyConfig, t: nat, j: nat)
    requires Rect(close, width) && Positive(close)
    requires SameShape(sd, close) && SameShape(vol, close)
    requires 1 <= cfg.lookbackMa <= t + 1 && cfg.momentumWindow <= t < |close| && j < width
    ensures var s := SignalsOf(MeanReversion.ZTable(close, MeanReversion.RollingMean(close, width, cfg.lookbackMa), sd),
                               Momentum.PctChange(close, width, cfg.momentumWindow), vol, cfg);
      s.entries[t][j] <==> Less(CellZ(close, width, sd, cfg.lookbackMa, t, j), -cfg.zEntry)
                           && Momentum.Return(close[t][j], close[t - cfg.momentumWindow][j]) > cfg.momThresh
                           && Less(vol[t][j], cfg.volThresh)
  {
    var z := MeanReversion.ZTable(close, MeanReversion.RollingMean(close, width, cfg.lookbackMa), sd);
    var mom := Momentum.PctChange(close, width, cfg.momentumWindow);
    CellZScore(close, width, sd, cfg, t, j);
    Momentum.PctChangeAt(close, width, cfg.momentumWindow, t, j);
    CellRule(z, mom, vol, cfg, t, j);
  }

  /** The exit rule on one cell whose mean window is full. */
  lemma CellExit(close: Table<real>, width: nat, sd: Table<Option<real>>, vol: Table<Option<real>>,
                 cfg: StrategyConfig, t: nat, j: nat)
    requires Rect(close, width) && Positive(close)
    requires SameShape(sd, close) && SameShape(vol, close)
    requires 1 <= cfg.lookbackMa <= t + 1 && t < |close| && j < width
    ensures var s := SignalsOf(MeanReversion.ZTable(close, MeanReversion.RollingMean(close, width, cfg.lookbackMa), sd),
                               Momentum.PctChange(close, width, cfg.momentumWindow), vol, cfg);
      s.exits[t][j] <==> Greater(CellZ(close, width, sd, cfg.lookbackMa, t, j), cfg.zExit)
  {
    var z := MeanReversion.ZTable(close, MeanReversion.RollingMean(close, width, cfg.lookbackMa), sd);
    var mom := Momentum.PctChange(close, width, cfg.momentumWindow);
    CellZScore(close, width, sd, cfg, t, j);
    CellRule(z, mom, vol, cfg, t, j);
  }

  /** The boolean layer on one cell. */
  lemma CellRule(z: Table<Option<real>>, mom: Table<Option<real>>, vol: Table<Option<real>>,
                 cfg: StrategyConfig, t: nat, j: nat)
    requires SameShape(mom, z) && SameShape(vol, z) && t < |z| && j < |z[t]|
    ensures var s := SignalsOf(z, mom, vol, cfg);
      (mom[t][j].Some? ==>
        (s.entries[t][j] <==> Less(z[t][j], -cfg.zEntry) && mom[t][j].value > cfg.momThresh
                              && Less(vol[t][j], cfg.volThresh)))
      && (s.exits[t][j] <==> Greater(z[t][j], cfg.zExit))
  {
  }

  /** One cell's z-score in `compute_signals` once the mean's window is full. */
  lemma CellZScore(close: Table<real>, width: nat, sd: Table<Option<real>>, cfg: StrategyConfig, t: nat, j: nat)
    requires Rect(close, width) && Positive(close) && SameShape(sd, close)
    requires 1 <= cfg.lookbackMa <= t + 1 && t < |close| && j < width
    ensures MeanReversion.ZTable(close, MeanReversion.RollingMean(close, width, cfg.lookbackMa), sd)[t][j]
            == CellZ(close, width, sd, cfg.lookbackMa, t, j)
  {
    var ma := MeanReversion.RollingMean(close, width, cfg.lookbackMa);
    MeanReversion.RollingMeanAt(close, width, cfg.lookbackMa, t, j);
    var z := MeanReversion.ZTable(close, ma, sd);
    assert z[t][j] == MeanReversion.ZScore(close[t][j], ma[t][j], sd[t][j]);
  }

  /** Entry needs `z < -z_entry` and exit `z > z_exit`, so whenever
      `z_exit >= -z_entry` no cell of `compute_signals` is both. */
  lemma EntryExitExclusive(close: Table<real>, width: nat, sd: Table<Option<real>>, vol: Table<Option<real>>,
                           cfg: StrategyConfig)
    requires Rect(close, width) && Positive(close)
    requires SameShape(sd, close) && SameShape(vol, close) && MissingBefore(vol, cfg.volWindow)
    requires cfg.lookbackMa >= 1
    requires cfg.zExit >= -cfg.zEntry
    ensures var s := ComputeSignals(close, width, sd, vol, cfg);
      forall t, j :: 0 <= t < |close| && 0 <= j < width ==> !(s.entries[t][j] && s.exits[t][j])
  {
  }

  /** The default strategy can be run, and with its thresholds (1.5 and
      1.5) no cell is ever both an entry and an exit. */
  lemma {:induction false} DefaultsExclusive(close: Table<real>, width: nat, sd: Table<Option<real>>,
                                             vol: Table<Option<real>>)
    requires Rect(close, width) && Positive(close)
    requires SameShape(sd, close) && SameShape(vol, close) && MissingBefore(vol, DefaultStrategy.volWindow)
    ensures DefaultStrategy.lookbackMa >= 1
    ensures var s := ComputeSignals(close, width, sd, vol, DefaultStrategy);
      forall t, j :: 0 <= t < |close| && 0 <= j < width ==> !(s.entries[t][j] && s.exits[t][j])
  {
    EntryExitExclusive(close, width, sd, vol, DefaultStrategy);
  }

  /** Thresholds with `z_exit < -z_entry` let one cell be both an entry and
      an exit: a z halfway between them that passes both filters. `daily_run`
      then resolves the cell as a buy. */
  lemma OverlappingThresholds(cfg: StrategyConfig)
    requires cfg.zExit < -cfg.zEntry
    ensures var s := SignalsOf([[Some((cfg.zExit - cfg.zEntry) / 2.0)]], [[Some(cfg.momThresh + 1.0)]],
                               [[Some(cfg.volThresh - 1.0)]], cfg);
      s.entries[0][0] && s.exits[0][0] && Action(s.entries[0][0], s.exits[0][0]) == Some(Buy)
  {
  }

  // ---------------------------------------------------------------------
  // Order dispatch of one run
  // ---------------------------------------------------------------------

  datatype Side = Buy | Sell

  datatype Order = Order(symbol: string, side: Side, quantity: int)

  /** The orders placed, in symbol order, and the symbol whose missing
      signal raised a `KeyError` and ended the run, if any. */
  datatype Dispatch = Dispatch(orders: seq<Order>, missing: Option<string>)

  /** The order side for one symbol: entry wins over exit. */
  function Action(entry: bool, exit: bool): (a: Option<Side>)
    ensures a == Some(Buy) <==> entry
    ensures a == Some(Sell) <==> !entry && exit
    ensures a.None? <==> !entry && !exit
  {
    if entry then Some(Buy) else if exit then Some(Sell) else None
  }

  /** Both of today's signals for `sym` can be read without a `KeyError`
      (the exit is read only when there is no entry). */
  predicate Readable(sym: string, lastEntry: map<string, bool>, lastExit: map<string, bool>)
  {
    sym in lastEntry && (lastEntry[sym] || sym in lastExit)
  }

  /** `sym` has an entry or an exit signal today. */
  predicate Signalled(sym: string, lastEntry: map<string, bool>, lastExit: map<string, bool>)
  {
    sym in lastEntry && (lastEntry[sym] || (sym in lastExit && lastExit[sym]))
  }

  function Occurrences(symbols: seq<string>, s: string): nat
  {
    if |symbols| == 0 then 0 else (if symbols[0] == s then 1 else 0) + Occurrences(symbols[1..], s)
  }

  function OrdersFor(orders: seq<Order>, s: string): nat
  {
    if |orders| == 0 then 0 else (if orders[0].symbol == s then 1 else 0) + OrdersFor(orders[1..], s)
  }

  function Prepend(o: Order, d: Dispatch): Dispatch
  {
    Dispatch([o] + d.orders, d.missing)
  }

  function SymbolsOf(orders: seq<Order>): (syms: seq<string>)
    ensures |syms| == |orders|
    ensures forall k :: 0 <= k < |orders| ==> syms[k] == orders[k].symbol
  {
    seq(|orders|, k requires 0 <= k < |orders| => orders[k].symbol)
  }

  /** `a` is `b` with some elements dropped, the rest kept in order. */
  predicate Subsequence<T(==)>(a: seq<T>, b: seq<T>)
    decreases |b|
  {
    |a| == 0 || (|b| > 0 && ((a[0] == b[0] && Subsequence(a[1..], b[1..])) || Subsequence(a, b[1..])))
  }

  /** The position of the first symbol whose signals cannot be read, or the
      length of the list when every one can. */
  function FirstUnreadable(symbols: seq<string>, lastEntry: map<string, bool>, lastExit: map<string, bool>): (i: nat)
    ensures i <= |symbols|
    ensures forall k :: 0 <= k < i ==> Readable(symbols[k], lastEntry, lastExit)
    ensures i < |symbols| ==> !Readable(symbols[i], lastEntry, lastExit)
  {
    if |symbols| == 0 || !Readable(symbols[0], lastEntry, lastExit) then 0
    else 1 + FirstUnreadable(symbols[1..], lastEntry, lastExit)
  }

  /** The symbol loop of `daily_run`: for each symbol in order, BUY on an
      entry, else SELL on an exit, always `order_size` shares. Every order
      matches its symbol's signals, there are no more orders than listed
      symbols, and a `KeyError` names the first unreadable symbol. The
      lemmas below give the list order and the counts per symbol. */
  function DailyOrders(symbols: seq<string>, lastEntry: map<string, bool>, lastExit: map<string, bool>,
                       orderSize: int): (d: Dispatch)
    ensures |d.orders| <= |symbols|
    ensures forall k :: 0 <= k < |d.orders| ==>
      d.orders[k].quantity == orderSize && d.orders[k].symbol in lastEntry
      && Action(lastEntry[d.orders[k].symbol], d.orders[k].symbol in lastExit && lastExit[d.orders[k].symbol])
         == Some(d.orders[k].side)
    ensures d.missing.None? <==> forall i :: 0 <= i < |symbols| ==> Readable(symbols[i], lastEntry, lastExit)
    ensures d.missing.Some? ==> d.missing.value in symbols && !Readable(d.missing.value, lastEntry, lastExit)
    ensures d.missing.Some? ==> d.missing.value == symbols[FirstUnreadable(symbols, lastEntry, lastExit)]
  {
    if |symbols| == 0 then Dispatch([], None)
    else
      var sym := symbols[0];
      if !Readable(sym, lastEntry, lastExit) then Dispatch([], Some(sym))
      else
        var rest := DailyOrders(symbols[1..], lastEntry, lastExit, orderSize);
        assert symbols == [sym] + symbols[1..];
        match Action(lastEntry[sym], sym in lastExit && lastExit[sym])
        case Some(side) => Prepend(Order(sym, side, orderSize), rest)
        case None => rest
  }

  /** The orders of a run follow the order of the symbol list. */
  lemma {:induction false} OrdersKeepListOrder(symbols: seq<string>, lastEntry: map<string, bool>,
                                               lastExit: map<string, bool>, orderSize: int)
    ensures Subsequence(SymbolsOf(DailyOrders(symbols, lastEntry, lastExit, orderSize).orders), symbols)
  {
    if |symbols| > 0 && Readable(symbols[0], lastEntry, lastExit) {
      var sym := symbols[0];
      var rest := DailyOrders(symbols[1..], lastEntry, lastExit, orderSize);
      OrdersKeepListOrder(symbols[1..], lastEntry, lastExit, orderSize);
      match Action(lastEntry[sym], sym in lastExit && lastExit[sym])
      case Some(side) => PrependKeepsOrder(Order(sym, side, orderSize), rest.orders, symbols);
      case None =>
    }
  }

  /** No symbol is ordered more often than it is listed. */
  lemma {:induction false} OrdersAtMostListed(symbols: seq<string>, lastEntry: map<string, bool>,
                                              lastExit: map<string, bool>, orderSize: int)
    ensures var d := DailyOrders(symbols, lastEntry, lastExit, orderSize);
      forall s :: OrdersFor(d.orders, s) <= Occurrences(symbols, s)
  {
    if |symbols| > 0 {
      var sym := symbols[0];
      OccurrencesCons(symbols);
      if Readable(sym, lastEntry, lastExit) {
        var rest := DailyOrders(symbols[1..], lastEntry, lastExit, orderSize);
        OrdersAtMostListed(symbols[1..], lastEntry, lastExit, orderSize);
        match Action(lastEntry[sym], sym in lastExit && lastExit[sym])
        case Some(side) => OrdersForCons(Order(sym, side, orderSize), rest.orders);
        case None =>
      }
    }
  }

  /** When every signal can be read, each signalled symbol is ordered once
      per listing and every other symbol not at all. */
  lemma {:induction false} OrdersCountSignalled(symbols: seq<string>, lastEntry: map<string, bool>,
                                                lastExit: map<string, bool>, orderSize: int)
    ensures var d := DailyOrders(symbols, lastEntry, lastExit, orderSize);
      d.missing.None? ==>
        forall s :: OrdersFor(d.orders, s) == (if Signalled(s, lastEntry, lastExit) then Occurrences(symbols, s) else 0)
  {
    if |symbols| > 0 && Readable(symbols[0], lastEntry, lastExit) {
      var sym := symbols[0];
      OccurrencesCons(symbols);
      var rest := DailyOrders(symbols[1..], lastEntry, lastExit, orderSize);
      OrdersCountSignalled(symbols[1..], lastEntry, lastExit, orderSize);
      match Action(lastEntry[sym], sym in lastExit && lastExit[sym])
      case Some(side) => OrdersForCons(Order(sym, side, orderSize), rest.orders);
      case None =>
    }
  }

  /** A run that stops on a `KeyError` has already placed exactly the orders
      of the symbols before the unreadable one, and that shorter list runs
      to completion. */
  lemma {:induction false} AbortKeepsEarlierOrders(symbols: seq<string>, lastEntry: map<string, bool>,
                                                   lastExit: map<string, bool>, orderSize: int)
    ensures var i := FirstUnreadable(symbols, lastEntry, lastExit);
      var placed := DailyOrders(symbols[..i], lastEntry, lastExit, orderSize);
      placed.missing.None? && DailyOrders(symbols, lastEntry, lastExit, orderSize).orders == placed.orders
  {
    if |symbols| > 0 && Readable(symbols[0], lastEntry, lastExit) {
      var i := FirstUnreadable(symbols, lastEntry, lastExit);
      AbortKeepsEarlierOrders(symbols[1..], lastEntry, lastExit, orderSize);
      assert symbols[..i][0] == symbols[0];
      assert symbols[..i][1..] == symbols[1..][..i - 1];
    } else {
      assert symbols[..0] == [];
    }
  }

  lemma PrependKeepsOrder(o: Order, orders: seq<Order>, symbols: seq<string>)
    requires |symbols| > 0 && o.symbol == symbols[0] && Subsequence(SymbolsOf(orders), symbols[1..])
    ensures Subsequence(SymbolsOf([o] + orders), symbols)
  {
    assert SymbolsOf([o] + orders)[1..] == SymbolsOf(orders);
  }

  lemma OccurrencesCons(symbols: seq<string>)
    requires |symbols| > 0
    ensures forall s :: Occurrences(symbols, s) == (if symbols[0] == s then 1 else 0) + Occurrences(symbols[1..], s)
  {
  }

  lemma OrdersForCons(o: Order, orders: seq<Order>)
    ensures forall s :: OrdersFor([o] + orders, s) == (if o.symbol == s then 1 else 0) + OrdersFor(orders, s)
  {
    assert ([o] + orders)[1..] == orders;
  }

  /** Distinct symbols are ordered at most once each per run. */
  lemma AtMostOneOrderPerSymbol(symbols: seq<string>, lastEntry: map<string, bool>, lastExit: map<string, bool>,
                                orderSize: int, s: string)
    requires forall i, j :: 0 <= i < j < |symbols| ==> symbols[i] != symbols[j]
    ensures OrdersFor(DailyOrders(symbols, lastEntry, lastExit, orderSize).orders, s) <= 1
  {
    OrdersAtMostListed(symbols, lastEntry, lastExit, orderSize);
    DistinctOccursOnce(symbols, s);
  }

  lemma {:induction false} DistinctOccursOnce(symbols: seq<string>, s: string)
    requires forall i, j :: 0 <= i < j < |symbols| ==> symbols[i] != symbols[j]
    ensures Occurrences(symbols, s) <= 1
  {
    if |symbols| > 0 {
      DistinctOccursOnce(symbols[1..], s);
      if symbols[0] == s {
        NotListed(symbols[1..], s);
      }
    }
  }

  lemma {:induction false} NotListed(symbols: seq<string>, s: string)
    requires s !in symbols
    ensures Occurrences(symbols, s) == 0
  {
    if |symbols| > 0 {
      assert forall x :: x in symbols[1..] ==> x in symbols;
      NotListed(symbols[1..], s);
    }
  }

  /** `entries.iloc[-1]` as a mapping from (distinct) column label to value;
      raises (here: `None`) on a table with no dates. */
  function LastRow(t: Table<bool>, columns: seq<string>): (m: Option<map<string, bool>>)
    requires Rect(t, |columns|)
    requires forall i, j :: 0 <= i < j < |columns| ==> columns[i] != columns[j]
    ensures m.None? <==> |t| == 0
    ensures m.Some? ==> forall s :: s in m.value <==> s in columns
    ensures m.Some? ==> forall j :: 0 <= j < |columns| ==> m.value[columns[j]] == t[|t| - 1][j]
  {
    if |t| == 0 then None
    else
      var row := t[|t| - 1];
      var m := map j | 0 <= j < |columns| :: columns[j] := row[j];
      assert forall j :: 0 <= j < |columns| ==> columns[j] in m;
      Some(m)
  }

  /** One pass of `daily_run` after the wait: signals on the downloaded
      closes (columns labelled by ticker), today's row, then the orders. An
      empty table raises on `iloc[-1]`; otherwise the run aborts exactly when
      a configured symbol is not among the downloaded columns. */
  function DailyRun(close: Table<real>, columns: seq<string>, sd: Table<Option<real>>, vol: Table<Option<real>>,
                    strategy: StrategyConfig, bot: BotConfig): (r: Option<Dispatch>)
    requires Rect(close, |columns|) && Positive(close)
    requires forall i, j :: 0 <= i < j < |columns| ==> columns[i] != columns[j]
    requires SameShape(sd, close) && SameShape(vol, close) && MissingBefore(vol, strategy.volWindow)
    requires strategy.lookbackMa >= 1
    ensures r.None? <==> |close| == 0
    ensures r.Some? ==> ReadsColumns(r.value, columns, bot.symbols, bot.orderSize)
    ensures var s := ComputeSignals(close, |columns|, sd, vol, strategy); var n := |s.entries| - 1;
      r.Some? ==> FollowsRow(r.value, s.entries[n], s.exits[n], columns, bot.symbols)
  {
    var signals := ComputeSignals(close, |columns|, sd, vol, strategy);
    assert Rect(signals.entries, |columns|) && Rect(signals.exits, |columns|);
    RunOnSignals(signals, columns, bot)
  }

  /** The run completes exactly when every listed symbol is a column, and
      every order is for a column at `order_size` shares. */
  predicate ReadsColumns(d: Dispatch, columns: seq<string>, symbols: seq<string>, orderSize: int)
  {
    (d.missing.None? <==> forall i :: 0 <= i < |symbols| ==> symbols[i] in columns)
    && forall k :: 0 <= k < |d.orders| ==> d.orders[k].symbol in columns && d.orders[k].quantity == orderSize
  }

  /** The orders of a run against one row of signals (by column): each
      order's side is its column's action; a completed run orders each
      signalled column once per listing and no other column; a run stopped
      by a `KeyError` names the first symbol that is not a column and has
      placed exactly the orders of the completed run before it. */
  predicate FollowsRow(d: Dispatch, entries: seq<bool>, exits: seq<bool>, columns: seq<string>, symbols: seq<string>)
    requires |entries| == |columns| && |exits| == |columns|
  {
    SidesFollowRow(d.orders, entries, exits, columns)
    && (d.missing.None? ==> CountsFollowRow(d.orders, entries, exits, columns, symbols))
    && (d.missing.Some? ==> AbortFollowsRow(d, entries, exits, columns, symbols))
  }

  /** Each order is for a column and has the side that the column's entry
      and exit in `entries` and `exits` (one row, by column) dictate. */
  predicate SidesFollowRow(orders: seq<Order>, entries: seq<bool>, exits: seq<bool>, columns: seq<string>)
    requires |entries| == |columns| && |exits| == |columns|
  {
    forall k :: 0 <= k < |orders| ==>
      orders[k].symbol in columns
      && Action(entries[ColumnIndex(columns, orders[k].symbol)], exits[ColumnIndex(columns, orders[k].symbol)])
         == Some(orders[k].side)
  }

  /** Each column with an entry or exit in the row is ordered once per
      listing of its symbol, and every other column not at all. */
  predicate CountsFollowRow(orders: seq<Order>, entries: seq<bool>, exits: seq<bool>, columns: seq<string>,
                            symbols: seq<string>)
    requires |entries| == |columns| && |exits| == |columns|
  {
    forall j :: 0 <= j < |columns| ==>
      OrdersFor(orders, columns[j]) == (if entries[j] || exits[j] then Occurrences(symbols, columns[j]) else 0)
  }

  /** The position of the first listed symbol that is not a column, or the
      length of the list when every one is. */
  function FirstMissing(symbols: seq<string>, columns: seq<string>): (i: nat)
    ensures i <= |symbols|
    ensures forall k :: 0 <= k < i ==> symbols[k] in columns
    ensures i < |symbols| ==> symbols[i] !in columns
  {
    if |symbols| == 0 || symbols[0] !in columns then 0 else 1 + FirstMissing(symbols[1..], columns)
  }

  /** A run stopped by a `KeyError`: the error names the first listed symbol
      that is not a column, and the orders already placed are exactly those
      of the completed run over the symbols before it. */
  predicate AbortFollowsRow(d: Dispatch, entries: seq<bool>, exits: seq<bool>, columns: seq<string>,
                            symbols: seq<string>)
    requires |entries| == |columns| && |exits| == |columns|
  {
    var i := FirstMissing(symbols, columns);
    i < |symbols| && d.missing == Some(symbols[i])
    && CountsFollowRow(d.orders, entries, exits, columns, symbols[..i])
  }

  /** The position of a column label. */
  function ColumnIndex(columns: seq<string>, sym: string): (j: nat)
    requires sym in columns
    ensures j < |columns| && columns[j] == sym
  {
    if columns[0] == sym then 0 else 1 + ColumnIndex(columns[1..], sym)
  }

  /** Today's row of the signal tables, then the orders of the run. */
  function RunOnSignals(signals: Signals, columns: seq<string>, bot: BotConfig): (r: Option<Dispatch>)
    requires Rect(signals.entries, |columns|) && Rect(signals.exits, |columns|)
    requires |signals.entries| == |signals.exits|
    requires forall i, j :: 0 <= i < j < |columns| ==> columns[i] != columns[j]
    ensures r.None? <==> |signals.entries| == 0
    ensures r.Some? ==> ReadsColumns(r.value, columns, bot.symbols, bot.orderSize)
    ensures var n := |signals.entries| - 1;
      r.Some? ==> FollowsRow(r.value, signals.entries[n], signals.exits[n], columns, bot.symbols)
  {
    var lastEntry := LastRow(signals.entries, columns);
    var lastExit := LastRow(signals.exits, columns);
    if lastEntry.None? || lastExit.None? then None
    else
      OrdersFollowLastRow(signals.entries, signals.exits, columns, bot.symbols, bot.orderSize);
      RunReadsColumns(signals.entries, signals.exits, columns, bot.symbols, bot.orderSize);
      Some(DailyOrders(bot.symbols, lastEntry.value, lastExit.value, bot.orderSize))
  }

  /** Reading today's row by label: the run completes exactly when every
      symbol is a column, and every order is for a column at `order_size`. */
  lemma RunReadsColumns(entries: Table<bool>, exits: Table<bool>, columns: seq<string>, symbols: seq<string>,
                        orderSize: int)
    requires Rect(entries, |columns|) && Rect(exits, |columns|) && |entries| == |exits| > 0
    requires forall i, j :: 0 <= i < j < |columns| ==> columns[i] != columns[j]
    ensures ReadsColumns(DailyOrders(symbols, LastRow(entries, columns).value, LastRow(exits, columns).value, orderSize),
                         columns, symbols, orderSize)
  {
    var lastEntry := LastRow(entries, columns).value;
    var lastExit := LastRow(exits, columns).value;
    assert forall sym :: Readable(sym, lastEntry, lastExit) <==> sym in columns;
  }

  /** The orders of a run read today's row of the signal tables: each order's
      side is the action of its column's entry and exit, a completed run
      orders each signalled column once per listing and no other column, and
      an aborted one has placed the orders of the symbols before the first
      missing column. */
  lemma OrdersFollowLastRow(entries: Table<bool>, exits: Table<bool>, columns: seq<string>, symbols: seq<string>,
                            orderSize: int)
    requires Rect(entries, |columns|) && Rect(exits, |columns|) && |entries| == |exits| > 0
    requires forall i, j :: 0 <= i < j < |columns| ==> columns[i] != columns[j]
    ensures var n := |entries| - 1;
      var d := DailyOrders(symbols, LastRow(entries, columns).value, LastRow(exits, columns).value, orderSize);
      FollowsRow(d, entries[n], exits[n], columns, symbols)
  {
    var lastEntry := LastRow(entries, columns).value;
    var lastExit := LastRow(exits, columns).value;
    OrderSides(entries, exits, columns, lastEntry, lastExit, symbols, orderSize);
    SignalledCounts(entries, exits, columns, lastEntry, lastExit, symbols, orderSize);
    AbortFollowsLastRow(entries, exits, columns, symbols, orderSize);
  }

  /** A run over today's row that stops on a `KeyError` names the first
      symbol that is not a column and has placed the orders of the symbols
      before it. */
  lemma AbortFollowsLastRow(entries: Table<bool>, exits: Table<bool>, columns: seq<string>, symbols: seq<string>,
                            orderSize: int)
    requires Rect(entries, |columns|) && Rect(exits, |columns|) && |entries| == |exits| > 0
    requires forall i, j :: 0 <= i < j < |columns| ==> columns[i] != columns[j]
    ensures var n := |entries| - 1;
      var d := DailyOrders(symbols, LastRow(entries, columns).value, LastRow(exits, columns).value, orderSize);
      d.missing.Some? ==> AbortFollowsRow(d, entries[n], exits[n], columns, symbols)
  {
    var lastEntry := LastRow(entries, columns).value;
    var lastExit := LastRow(exits, columns).value;
    var d := DailyOrders(symbols, lastEntry, lastExit, orderSize);
    if d.missing.Some? {
      assert forall sym :: Readable(sym, lastEntry, lastExit) <==> sym in columns;
      UnreadableIsMissing(symbols, columns, lastEntry, lastExit);
      var i := FirstMissing(symbols, columns);
      AbortKeepsEarlierOrders(symbols, lastEntry, lastExit, orderSize);
      SignalledCounts(entries, exits, columns, lastEntry, lastExit, symbols[..i], orderSize);
    }
  }

  /** When exactly the columns can be read, the first unreadable symbol is
      the first one that is not a column. */
  lemma {:induction false} UnreadableIsMissing(symbols: seq<string>, columns: seq<string>,
                                               lastEntry: map<string, bool>, lastExit: map<string, bool>)
    requires forall sym :: Readable(sym, lastEntry, lastExit) <==> sym in columns
    ensures FirstUnreadable(symbols, lastEntry, lastExit) == FirstMissing(symbols, columns)
  {
    if |symbols| > 0 {
      UnreadableIsMissing(symbols[1..], columns, lastEntry, lastExit);
    }
  }

  lemma OrderSides(entries: Table<bool>, exits: Table<bool>, columns: seq<string>,
                   lastEntry: map<string, bool>, lastExit: map<string, bool>, symbols: seq<string>, orderSize: int)
    requires Rect(entries, |columns|) && Rect(exits, |columns|) && |entries| == |exits| > 0
    requires forall s :: s in lastEntry <==> s in columns
    requires forall s :: s in lastExit <==> s in columns
    requires forall j :: 0 <= j < |columns| ==> lastEntry[columns[j]] == entries[|entries| - 1][j]
    requires forall j :: 0 <= j < |columns| ==> lastExit[columns[j]] == exits[|entries| - 1][j]
    ensures var d := DailyOrders(symbols, lastEntry, lastExit, orderSize);
      SidesFollowRow(d.orders, entries[|entries| - 1], exits[|entries| - 1], columns)
  {
    var n := |entries| - 1;
    var d := DailyOrders(symbols, lastEntry, lastExit, orderSize);
    forall k | 0 <= k < |d.orders|
      ensures d.orders[k].symbol in columns
      ensures var j := ColumnIndex(columns, d.orders[k].symbol);
              Action(entries[n][j], exits[n][j]) == Some(d.orders[k].side)
    {
      var sym := d.orders[k].symbol;
      var j := ColumnIndex(columns, sym);
      assert lastEntry[sym] == entries[n][j] && lastExit[sym] == exits[n][j];
    }
  }

  lemma SignalledCounts(entries: Table<bool>, exits: Table<bool>, columns: seq<string>,
                        lastEntry: map<string, bool>, lastExit: map<string, bool>, symbols: seq<string>, orderSize: int)
    requires Rect(entries, |columns|) && Rect(exits, |columns|) && |entries| == |exits| > 0
    requires forall s :: s in lastEntry <==> s in columns
    requires forall s :: s in lastExit <==> s in columns
    requires forall j :: 0 <= j < |columns| ==> lastEntry[columns[j]] == entries[|entries| - 1][j]
    requires forall j :: 0 <= j < |columns| ==> lastExit[columns[j]] == exits[|entries| - 1][j]
    ensures var d := DailyOrders(symbols, lastEntry, lastExit, orderSize);
      d.missing.None? ==> CountsFollowRow(d.orders, entries[|entries| - 1], exits[|entries| - 1], columns, symbols)
  {
    var n := |entries| - 1;
    var d := DailyOrders(symbols, lastEntry, lastExit, orderSize);
    OrdersCountSignalled(symbols, lastEntry, lastExit, orderSize);
    forall j | 0 <= j < |columns| && d.missing.None?
      ensures OrdersFor(d.orders, columns[j]) == (if entries[n][j] || exits[n][j] then Occurrences(symbols, columns[j]) else 0)
    {
      assert Signalled(columns[j], lastEntry, lastExit) == (entries[n][j] || exits[n][j]);
    }
  }

  // ---------------------------------------------------------------------
  // Waiting for the daily run time
  // ---------------------------------------------------------------------

  /** A naive local date-time: a day number and the seconds since midnight. */
  datatype Clock = Clock(day: int, second: real)

  predicate TimeOfDay(s: real)
  {
    0.0 <= s < SecondsPerDay
  }

  predicate ValidClock(c: Clock)
  {
    TimeOfDay(c.second)
  }

  /** Seconds since day 0 at midnight. */
  function Absolute(c: Clock): real
  {
    (c.day as real) * SecondsPerDay + c.second
  }

  /** `target_dt`: today at `run_at`, pushed to tomorrow only when the
      current time of day is strictly past `run_at`. */
  function NextRun(now: Clock, runAt: real): (target: Clock)
    requires ValidClock(now) && TimeOfDay(runAt)
    ensures target.second == runAt
    ensures target.day == now.day || target.day == now.day + 1
    ensures target.day == now.day + 1 <==> now.second > runAt
  {
    if now.second > runAt then Clock(now.day + 1, runAt) else Clock(now.day, runAt)
  }

  /** `max(0, (target_dt - now).total_seconds())`: less than one day, zero
      exactly at `run_at`, and it ends on the target. */
  function WaitSeconds(now: Clock, runAt: real): (w: real)
    requires ValidClock(now) && TimeOfDay(runAt)
    ensures 0.0 <= w < SecondsPerDay
    ensures w == 0.0 <==> now.second == runAt
    ensures Absolute(now) + w == Absolute(NextRun(now, runAt))
  {
    Stats.Max(0.0, Absolute(NextRun(now, runAt)) - Absolute(now))
  }

  /** The clock `w` seconds later, for waits shorter than a day. */
  function Advance(c: Clock, w: real): (r: Clock)
    requires ValidClock(c) && 0.0 <= w < SecondsPerDay
    ensures ValidClock(r)
    ensures Absolute(r) == Absolute(c) + w
  {
    if c.second + w >= SecondsPerDay then Clock(c.day + 1, c.second + w - SecondsPerDay)
    else Clock(c.day, c.second + w)
  }

  /** Sleeping for the computed wait wakes the bot on the target, whose time
      of day is `run_at`: today if that is still ahead, else tomorrow. */
  lemma WaitLandsOnRunAt(now: Clock, runAt: real)
    requires ValidClock(now) && TimeOfDay(runAt)
    ensures var woken := Advance(now, WaitSeconds(now, runAt));
      woken == NextRun(now, runAt) && woken.second == runAt
      && (woken.day == now.day <==> now.second <= runAt)
  {
  }

  // ---------------------------------------------------------------------
  // Command line
  // ---------------------------------------------------------------------

  datatype Phase = Backtest | Live

  /** The parsed flags; `mode` is `None` when `--mode` is absent. */
  datatype Args = Args(mode: Option<string>, plot: bool, zEntry: Option<real>, symbols: Option<seq<string>>)

  /** What `main` runs: the configurations it builds and the phases in order. */
  datatype Plan = Plan(strategy: StrategyConfig, bot: BotConfig, phases: seq<Phase>, plot: bool)

  const ModeChoices: set<string> := {"backtest", "live", "both"}

  /** The phases of a mode: "both" runs the backtest and then live. */
  function Phases(mode: string): (ps: seq<Phase>)
    requires mode in ModeChoices
    ensures Backtest in ps <==> mode != "live"
    ensures Live in ps <==> mode != "backtest"
    ensures forall i, j :: 0 <= i < j < |ps| ==> ps[i] == Backtest && ps[j] == Live
  {
    (if mode in {"backtest", "both"} then [Backtest] else [])
    + (if mode in {"live", "both"} then [Live] else [])
  }

  /** `main`: argparse rejects an unknown `--mode` and defaults it to
      "backtest"; `--z_entry` replaces the entry threshold whenever given
      (0 included), `--symbols` the symbols whenever non-empty; every other
      setting keeps its default. */
  function Main(args: Args, ibIp: Option<string>): (r: Result<Plan, string>)
    ensures r.Err? <==> args.mode.Some? && args.mode.value !in ModeChoices
    ensures r.Ok? ==> r.value.strategy.zEntry == (if args.zEntry.Some? then args.zEntry.value else DefaultStrategy.zEntry)
    ensures r.Ok? ==> r.value.strategy.(zEntry := DefaultStrategy.zEntry) == DefaultStrategy
    ensures r.Ok? && args.symbols.Some? && |args.symbols.value| > 0 ==> r.value.bot.symbols == args.symbols.value
    ensures r.Ok? && (args.symbols.None? || |args.symbols.value| == 0) ==> r.value.bot.symbols == DefaultBot(ibIp).symbols
    ensures r.Ok? ==> r.value.bot.(symbols := DefaultBot(ibIp).symbols) == DefaultBot(ibIp)
    ensures r.Ok? ==> r.value.plot == args.plot
    ensures r.Ok? && args.mode.None? ==> r.value.phases == [Backtest]
    ensures r.Ok? ==> r.value.phases == Phases(args.mode.GetOr("backtest"))
  {
    var mode := args.mode.GetOr("backtest");
    if mode !in ModeChoices then Err(mode)
    else
      var strategy := if args.zEntry.Some? then DefaultStrategy.(zEntry := args.zEntry.value) else DefaultStrategy;
      var bot := if args.symbols.Some? && |args.symbols.value| > 0
                 then DefaultBot(ibIp).(symbols := args.symbols.value) else DefaultBot(ibIp);
      Ok(Plan(strategy, bot, Phases(mode), args.plot))
  }
}

=== FILE: mean_reversion.dfy ===
/** The mean-reversion predictor: each (date, ticker) cell's z-score against
    its rolling mean is mapped to a probability, with a neutral 0.5 wherever
    the z-score is missing. */
module MeanReversion {
  import opened Wrappers
  import opened Frame
  import Stats

  /** The `L` prices of column `j` ending at date `t`. */
  function Window(price: Table<real>, width: nat, j: nat, t: nat, L: nat): (w: seq<real>)
    requires Rect(price, width) && j < width
    requires 1 <= L <= t + 1 && t < |price|
    ensures |w| == L
    ensures forall k :: 0 <= k < L ==> w[k] == price[t + 1 - L + k][j]
  {
    seq(L, k requires 0 <= k < L => price[t + 1 - L + k][j])
  }

  /** `price.rolling(L).mean()`: the mean of the last `L` prices, missing on
      the first `L - 1` dates, where the window is not yet full. */
  function RollingMean(price: Table<real>, width: nat, L: nat): (ma: Table<Option<real>>)
    requires Rect(price, width) && L >= 1
    ensures SameShape(ma, price)
    ensures MissingBefore(ma, L - 1)
    ensures forall t, j :: 0 <= t < |price| && 0 <= j < width ==> (ma[t][j].Some? <==> t >= L - 1)
  {
    seq(|price|, t requires 0 <= t < |price| =>
      seq(width, j requires 0 <= j < width =>
        if t + 1 < L then None else Some(Stats.Mean(Window(price, width, j, t, L)))))
  }

  /** Once the window is full, the rolling mean of a cell is the mean of its
      window. */
  lemma RollingMeanAt(price: Table<real>, width: nat, L: nat, t: nat, j: nat)
    requires Rect(price, width) && 1 <= L <= t + 1 && t < |price| && j < width
    ensures RollingMean(price, width, L)[t][j] == Some(Stats.Mean(Window(price, width, j, t, L)))
  {
  }

  /** `(price - ma) / std` on one cell. A missing mean or deviation gives a
      missing z; so does a zero deviation, which in exact arithmetic only a
      constant window has, where `price - ma` is 0 as well (0/0 is NaN). */
  function ZScore(price: real, ma: Option<real>, sd: Option<real>): (z: Option<real>)
    ensures z.Some? <==> ma.Some? && sd.Some? && sd.value != 0.0
    ensures z.Some? ==> z.value * sd.value == price - ma.value
  {
    if ma.None? || sd.None? || sd.value == 0.0 then None
    else Some((price - ma.value) / sd.value)
  }

  /** `max(0, z_entry - z) / (2 z_entry)`, then NaN filled with 0.5. The
      clip is from below only, so `p` exceeds 1 once `z < -z_entry`; the
      mapping is decreasing in `z`, the opposite of the comment beside it. */
  function Prob(z: Option<real>, zEntry: real): (p: real)
    requires zEntry > 0.0
    ensures p >= 0.0
    ensures z.None? ==> p == Neutral
    ensures z == Some(0.0) ==> p == Neutral
    ensures z.Some? && z.value >= zEntry ==> p == 0.0
    ensures z.Some? && z.value < zEntry ==> p * (2.0 * zEntry) == zEntry - z.value
    ensures z == Some(-zEntry) ==> p == 1.0
    ensures z.Some? && z.value < -zEntry ==> p > 1.0
  {
    match z
    case None => Neutral
    case Some(v) =>
      assert v == 0.0 ==> Stats.Max(0.0, zEntry - v) / (2.0 * zEntry) == zEntry / (2.0 * zEntry) == 0.5;
      Stats.Max(0.0, zEntry - v) / (2.0 * zEntry)
  }

  /** `(price - ma) / std` over a whole table. */
  function ZTable(price: Table<real>, ma: Table<Option<real>>, sd: Table<Option<real>>): (z: Table<Option<real>>)
    requires SameShape(ma, price) && SameShape(sd, price)
    ensures SameShape(z, price)
    ensures forall t, j :: 0 <= t < |price| && 0 <= j < |price[t]| ==> z[t][j] == ZScore(price[t][j], ma[t][j], sd[t][j])
  {
    seq(|price|, t requires 0 <= t < |price| =>
      seq(|price[t]|, j requires 0 <= j < |price[t]| => ZScore(price[t][j], ma[t][j], sd[t][j])))
  }

  /** `predict(price, lookback, z_entry)` with the rolling mean and standard
      deviation supplied as tables of the price's shape. */
  function Predict(price: Table<real>, ma: Table<Option<real>>, sd: Table<Option<real>>, zEntry: real): (p: Table<real>)
    requires SameShape(ma, price) && SameShape(sd, price)
    requires zEntry > 0.0
    ensures SameShape(p, price)
    ensures forall t, j :: 0 <= t < |price| && 0 <= j < |price[t]| ==>
      p[t][j] == Prob(ZScore(price[t][j], ma[t][j], sd[t][j]), zEntry)
    ensures forall t, j :: 0 <= t < |price| && 0 <= j < |price[t]| ==> p[t][j] >= 0.0
  {
    seq(|price|, t requires 0 <= t < |price| =>
      seq(|price[t]|, j requires 0 <= j < |price[t]| =>
        Prob(ZScore(price[t][j], ma[t][j], sd[t][j]), zEntry)))
  }

  /** Higher z never gives a higher probability. */
  lemma ProbNonIncreasing(z1: real, z2: real, zEntry: real)
    requires zEntry > 0.0 && z1 <= z2
    ensures Prob(Some(z2), zEntry) <= Prob(Some(z1), zEntry)
  {
    var d := 2.0 * zEntry;
    var a := Stats.Max(0.0, zEntry - z1);
    var b := Stats.Max(0.0, zEntry - z2);
    assert b <= a;
    assert Prob(Some(z1), zEntry) == a / d;
    assert Prob(Some(z2), zEntry) == b / d;
    assert a / d - b / d == (a - b) / d;
  }

  /** Below `z_entry` the map is invertible: the z-score is recovered from
      the probability as `z_entry (1 - 2p)`. */
  lemma ProbRecoversZ(z: real, zEntry: real)
    requires zEntry > 0.0 && z < zEntry
    ensures zEntry * (1.0 - 2.0 * Prob(Some(z), zEntry)) == z
  {
  }

  /** The first `L - 1` dates of the rolling mean are missing, so the
      predictor is neutral on every cell of them. */
  lemma WarmUpNeutral(price: Table<real>, width: nat, L: nat, sd: Table<Option<real>>, zEntry: real)
    requires Rect(price, width) && L >= 1
    requires SameShape(sd, price) && zEntry > 0.0
    ensures var p := Predict(price, RollingMean(price, width, L), sd, zEntry);
      forall t, j :: 0 <= t < |price| && t < L - 1 && 0 <= j < width ==> p[t][j] == Neutral
  {
  }

  /** A constant window puts the price at its rolling mean: the z-score is
      0, or missing when the deviation is 0, and either way the cell is 0.5. */
  lemma ConstantWindowNeutral(price: Table<real>, width: nat, L: nat, sd: Table<Option<real>>,
                              zEntry: real, t: nat, j: nat)
    requires Rect(price, width) && L >= 1 && SameShape(sd, price) && zEntry > 0.0
    requires L - 1 <= t < |price| && j < width
    requires forall k :: t + 1 - L <= k <= t ==> price[k][j] == price[t][j]
    ensures Predict(price, RollingMean(price, width, L), sd, zEntry)[t][j] == Neutral
  {
    var w := Window(price, width, j, t, L);
    var c := price[t][j];
    assert Stats.AllWithin(w, c, c) by {
      forall k | 0 <= k < |w| ensures c <= w[k] <= c {
        assert w[k] == price[t + 1 - L + k][j];
      }
    }
    Stats.MeanWithin(w, c, c);
    var ma := RollingMean(price, width, L);
    assert ma[t][j] == Some(c);
    var z := ZScore(c, ma[t][j], sd[t][j]);
    if z.Some? {
      assert z.value * sd[t][j].value == 0.0;
      assert z.value == 0.0;
    }
  }
}

=== FILE: momentum.dfy ===
/** The momentum predictor: the N-day return of each (date, ticker) cell,
    scaled linearly into a probability and clipped to [0, 1], with a neutral
    0.5 on the first N dates, where the return is undefined. */
module Momentum {
  import opened Wrappers
  import opened Frame
  import Stats

  /** The simple return from `before` to `after`. */
  function Return(after: real, before: real): (r: real)
    requires before > 0.0
    ensures before * (r + 1.0) == after
  {
    after / before - 1.0
  }

  /** A return from a positive price exceeds `th` exactly when the later
      price exceeds the earlier one grown by `th`. */
  lemma ReturnExceeds(after: real, before: real, th: real)
    requires before > 0.0
    ensures Return(after, before) > th <==> after > (1.0 + th) * before
  {
    var r := Return(after, before);
    assert after - (1.0 + th) * before == before * (r - th);
  }

  /** `price.pct_change(lookback)`: `price[t] / price[t - lookback] - 1`,
      missing on the first `lookback` dates. */
  function PctChange(price: Table<real>, width: nat, lookback: nat): (mom: Table<Option<real>>)
    requires Rect(price, width) && Positive(price)
    ensures SameShape(mom, price)
    ensures MissingBefore(mom, lookback)
    ensures forall t, j :: 0 <= t < |price| && 0 <= j < width ==> (mom[t][j].Some? <==> t >= lookback)
    ensures forall t, j :: lookback <= t < |price| && 0 <= j < width ==>
      price[t - lookback][j] * (mom[t][j].value + 1.0) == price[t][j]
  {
    seq(|price|, t requires 0 <= t < |price| =>
      seq(width, j requires 0 <= j < width =>
        if t < lookback then None else Some(Return(price[t][j], price[t - lookback][j]))))
  }

  /** After the warm-up, a cell of the table is the return over `lookback`
      dates. */
  lemma PctChangeAt(price: Table<real>, width: nat, lookback: nat, t: nat, j: nat)
    requires Rect(price, width) && Positive(price)
    requires lookback <= t < |price| && j < width
    ensures PctChange(price, width, lookback)[t][j] == Some(Return(price[t][j], price[t - lookback][j]))
  {
  }

  /** `clip(mom / (2 clip) + 0.5, 0, 1)`, then NaN filled with 0.5. */
  function Prob(mom: Option<real>, clip: real): (p: real)
    requires clip > 0.0
    ensures 0.0 <= p <= 1.0
    ensures mom.None? ==> p == Neutral
    ensures mom == Some(0.0) ==> p == Neutral
    ensures mom.Some? && mom.value >= clip ==> p == 1.0
    ensures mom.Some? && mom.value <= -clip ==> p == 0.0
    ensures mom.Some? && -clip <= mom.value <= clip ==> (p - Neutral) * (2.0 * clip) == mom.value
  {
    match mom
    case None => Neutral
    case Some(m) =>
      var x := m / (2.0 * clip) + 0.5;
      assert -clip <= m <= clip ==> 0.0 <= x <= 1.0;
      assert m >= clip ==> x >= 1.0 by {
        if m >= clip {
          var d := 2.0 * clip;
          assert m / d >= clip / d;
          assert clip / d == 0.5;
        }
      }
      assert m <= -clip ==> x <= 0.0 by {
        if m <= -clip {
          assert x == (m + clip) / (2.0 * clip);
        }
      }
      Stats.Clip(x, 0.0, 1.0)
  }

  /** `predict(price, lookback, clip)` for a table of positive prices. */
  function Predict(price: Table<real>, width: nat, lookback: nat, clip: real): (p: Table<real>)
    requires Rect(price, width) && Positive(price) && clip > 0.0
    ensures SameShape(p, price)
    ensures forall t, j :: 0 <= t < |price| && 0 <= j < width ==>
      p[t][j] == Prob(PctChange(price, width, lookback)[t][j], clip)
    ensures forall t, j :: 0 <= t < |price| && 0 <= j < width ==> 0.0 <= p[t][j] <= 1.0
    ensures forall t, j :: 0 <= t < |price| && t < lookback && 0 <= j < width ==> p[t][j] == Neutral
  {
    var mom := PctChange(price, width, lookback);
    seq(|price|, t requires 0 <= t < |price| =>
      seq(width, j requires 0 <= j < width => Prob(mom[t][j], clip)))
  }

  /** A larger return never gives a smaller probability. */
  lemma ProbNonDecreasing(m1: real, m2: real, clip: real)
    requires clip > 0.0 && m1 <= m2
    ensures Prob(Some(m1), clip) <= Prob(Some(m2), clip)
  {
  }

  /** Within `[-clip, clip]` the probability determines the return. */
  lemma ProbRecoversReturn(m: real, clip: real)
    requires clip > 0.0 && -clip <= m <= clip
    ensures (2.0 * Prob(Some(m), clip) - 1.0) * clip == m
  {
  }
}

=== FILE: stats.dfy ===
/** Exact arithmetic over finite sequences of reals: sums, means, clipping
    and flattening of nested rows. */
module Stats {

  function Sum(s: seq<real>): real
  {
    if |s| == 0 then 0.0 else s[0] + Sum(s[1..])
  }

  /** Arithmetic mean of a non-empty sequence (pandas `mean`). */
  function Mean(s: seq<real>): real
    requires |s| > 0
  {
    Sum(s) / (|s| as real)
  }

  function Max(a: real, b: real): real
  {
    if a >= b then a else b
  }

  /** `x` clipped into `[lo, hi]` (pandas `clip(lo, hi)`). */
  function Clip(x: real, lo: real, hi: real): (r: real)
    requires lo <= hi
    ensures lo <= r <= hi
    ensures lo <= x <= hi ==> r == x
    ensures x < lo ==> r == lo
    ensures x > hi ==> r == hi
  {
    if x < lo then lo else if x > hi then hi else x
  }

  /** Concatenation of a sequence of rows (pandas `concat(axis=1)` on one date). */
  function Flatten<T>(xs: seq<seq<T>>): seq<T>
  {
    if |xs| == 0 then [] else xs[0] + Flatten(xs[1..])
  }

  /** Total number of cells in `xs`, counted row by row. */
  function Cells<T>(xs: seq<seq<T>>): nat
  {
    if |xs| == 0 then 0 else |xs[0]| + Cells(xs[1..])
  }

  /** Sum of the row sums of `xs`: a definition independent of `Flatten`. */
  function SumOfSums(xs: seq<seq<real>>): real
  {
    if |xs| == 0 then 0.0 else Sum(xs[0]) + SumOfSums(xs[1..])
  }

  predicate AllWithin(s: seq<real>, lo: real, hi: real)
  {
    forall i :: 0 <= i < |s| ==> lo <= s[i] <= hi
  }

  /** A single row has its own length, sum and cells. */
  lemma SingleRow<T>(x: seq<T>)
    ensures Cells([x]) == |x| && Flatten([x]) == x
  {
  }

  lemma SingleRowSum(x: seq<real>)
    ensures SumOfSums([x]) == Sum(x)
  {
  }

  lemma {:induction false} SumAppend(a: seq<real>, b: seq<real>)
    ensures Sum(a + b) == Sum(a) + Sum(b)
  {
    if |a| == 0 {
      assert a + b == b;
    } else {
      assert (a + b)[1..] == a[1..] + b;
      SumAppend(a[1..], b);
    }
  }

  lemma {:induction false} SumBounds(s: seq<real>, lo: real, hi: real)
    requires AllWithin(s, lo, hi)
    ensures lo * (|s| as real) <= Sum(s) <= hi * (|s| as real)
  {
    if |s| > 0 {
      assert AllWithin(s[1..], lo, hi) by {
        forall i | 0 <= i < |s[1..]| ensures lo <= s[1..][i] <= hi {
          assert s[1..][i] == s[i + 1];
        }
      }
      SumBounds(s[1..], lo, hi);
    }
  }

  /** The mean lies between any lower and upper bound of its terms. */
  lemma MeanWithin(s: seq<real>, lo: real, hi: real)
    requires |s| > 0
    requires AllWithin(s, lo, hi)
    ensures lo <= Mean(s) <= hi
  {
    var n := |s| as real;
    SumBounds(s, lo, hi);
    var m := Mean(s);
    assert m * n == Sum(s);
    assert (m - lo) * n >= 0.0;
    assert (hi - m) * n >= 0.0;
  }

  lemma {:induction false} FlattenCells<T>(xs: seq<seq<T>>)
    ensures |Flatten(xs)| == Cells(xs)
  {
    if |xs| > 0 {
      FlattenCells(xs[1..]);
    }
  }

  lemma {:induction false} FlattenSum(xs: seq<seq<real>>)
    ensures Sum(Flatten(xs)) == SumOfSums(xs)
  {
    if |xs| > 0 {
      SumAppend(xs[0], Flatten(xs[1..]));
      FlattenSum(xs[1..]);
    }
  }

  /** A bound on every cell of every row is a bound on every flattened cell. */
  lemma {:induction false} FlattenWithin(xs: seq<seq<real>>, lo: real, hi: real)
    requires forall k :: 0 <= k < |xs| ==> AllWithin(xs[k], lo, hi)
    ensures AllWithin(Flatten(xs), lo, hi)
  {
    if |xs| > 0 {
      FlattenWithin(xs[1..], lo, hi);
      var f := Flatten(xs);
      assert f == xs[0] + Flatten(xs[1..]);
      forall i | 0 <= i < |f| ensures lo <= f[i] <= hi {
        if i < |xs[0]| {
          assert f[i] == xs[0][i];
        } else {
          assert f[i] == Flatten(xs[1..])[i - |xs[0]|];
        }
      }
    }
  }
}

=== FILE: universe.dfy ===
/** Universe construction: the candidate tickers ranked by market
    capitalisation, then a greedy pick of at most 12 of them with at most
    `MaxPerSector` from any one sector. */
module Universe {

  const MaxPerSector: nat := 4
  const BasketSize: nat := 12

  /** One candidate as fetched: ticker, sector and market capitalisation. */
  datatype Row = Row(ticker: string, sector: string, mcap: int)

  /** The data looked up for one ticker. */
  datatype Info = Info(sector: string, mcap: int)

  /** One basket entry: the market capitalisation is not kept. */
  datatype Member = Member(ticker: string, sector: string)

  function MemberOf(row: Row): Member
  {
    Member(row.ticker, row.sector)
  }

  // ---------------------------------------------------------------------
  // Ranking by market capitalisation
  // ---------------------------------------------------------------------

  /** Non-increasing market capitalisation. */
  predicate SortedByMcap(rows: seq<Row>)
  {
    forall i, j :: 0 <= i < j < |rows| ==> rows[i].mcap >= rows[j].mcap
  }

  /** The rows of capitalisation `m`, in their order in `rows`. */
  function WithMcap(rows: seq<Row>, m: int): seq<Row>
  {
    if |rows| == 0 then []
    else (if rows[0].mcap == m then [rows[0]] else []) + WithMcap(rows[1..], m)
  }

  /** `rows` and `sorted` hold the same rows and every group of equal
      capitalisation keeps its order: what a stable sort guarantees. */
  ghost predicate StablyReordered(rows: seq<Row>, sorted: seq<Row>)
  {
    multiset(sorted) == multiset(rows) && forall m :: WithMcap(sorted, m) == WithMcap(rows, m)
  }

  /** The rows of capitalisation `m` contributed by a single row. */
  function Own(x: Row, m: int): seq<Row>
  {
    if x.mcap == m then [x] else []
  }

  lemma WithMcapCons(x: Row, s: seq<Row>, m: int)
    ensures WithMcap([x] + s, m) == Own(x, m) + WithMcap(s, m)
  {
  }

  /** Inserts `x` before the first row whose capitalisation is not greater,
      so that `x` precedes every row of equal capitalisation. */
  function Insert(x: Row, s: seq<Row>): (r: seq<Row>)
    requires SortedByMcap(s)
    ensures SortedByMcap(r)
    ensures |r| == |s| + 1
    ensures r[0] == x || (|s| > 0 && r[0] == s[0])
    ensures StablyReordered([x] + s, r)
  {
    if |s| == 0 || x.mcap >= s[0].mcap then
      [x] + s
    else
      var rest := Insert(x, s[1..]);
      InsertStep(x, s, rest);
      [s[0]] + rest
  }

  /** The recursive case of `Insert`: `s[0]` goes in front of the insertion
      into the rest, since `x` ranks strictly below it. */
  lemma InsertStep(x: Row, s: seq<Row>, rest: seq<Row>)
    requires SortedByMcap(s) && |s| > 0 && x.mcap < s[0].mcap
    requires SortedByMcap(rest) && |rest| > 0
    requires rest[0] == x || (|s| > 1 && rest[0] == s[1])
    requires StablyReordered([x] + s[1..], rest)
    ensures SortedByMcap([s[0]] + rest)
    ensures StablyReordered([x] + s, [s[0]] + rest)
  {
    InsertStepSorted(x, s, rest);
    var r := [s[0]] + rest;
    assert s == [s[0]] + s[1..];
    assert multiset(r) == multiset([x] + s) by {
      assert multiset(r) == multiset([s[0]]) + multiset(rest);
      assert multiset(rest) == multiset([x]) + multiset(s[1..]);
      assert multiset([x] + s) == multiset([x]) + multiset([s[0]]) + multiset(s[1..]);
    }
    forall m ensures WithMcap(r, m) == WithMcap([x] + s, m) {
      InsertStepGroup(x, s, rest, m);
    }
  }

  lemma InsertStepSorted(x: Row, s: seq<Row>, rest: seq<Row>)
    requires SortedByMcap(s) && |s| > 0 && x.mcap < s[0].mcap
    requires SortedByMcap(rest) && |rest| > 0
    requires rest[0] == x || (|s| > 1 && rest[0] == s[1])
    ensures SortedByMcap([s[0]] + rest)
  {
    var r := [s[0]] + rest;
    assert s[0].mcap >= rest[0].mcap;
    forall i, j | 0 <= i < j < |r| ensures r[i].mcap >= r[j].mcap {
      if i == 0 {
        assert r[j] == rest[j - 1];
      } else {
        assert r[i] == rest[i - 1] && r[j] == rest[j - 1];
      }
    }
  }

  lemma InsertStepGroup(x: Row, s: seq<Row>, rest: seq<Row>, m: int)
    requires |s| > 0 && x.mcap < s[0].mcap
    requires WithMcap(rest, m) == WithMcap([x] + s[1..], m)
    ensures WithMcap([s[0]] + rest, m) == WithMcap([x] + s, m)
  {
    assert s == [s[0]] + s[1..];
    WithMcapCons(s[0], rest, m);
    WithMcapCons(x, s[1..], m);
    WithMcapCons(x, s, m);
    WithMcapCons(s[0], s[1..], m);
    assert Own(x, m) == [] || Own(s[0], m) == [];
  }

  /** `rows.sort(key=mcap, reverse=True)`: descending and stable. */
  function SortByMcapDesc(rows: seq<Row>): (r: seq<Row>)
    ensures SortedByMcap(r)
    ensures StablyReordered(rows, r)
  {
    if |rows| == 0 then []
    else
      var tail := SortByMcapDesc(rows[1..]);
      var r := Insert(rows[0], tail);
      assert rows == [rows[0]] + rows[1..];
      assert forall m :: WithMcap(r, m) == WithMcap(rows, m) by {
        forall m ensures WithMcap(r, m) == WithMcap(rows, m) {
          assert WithMcap(r, m) == WithMcap([rows[0]] + tail, m);
          assert ([rows[0]] + tail)[1..] == tail;
        }
      }
      r
  }

  function Min(a: nat, b: nat): nat
  {
    if a <= b then a else b
  }

  /** `fetch_mw_top_n(n)`: the first `n` tickers of the list, each with the
      sector and capitalisation `info` reports for it, ranked by
      capitalisation. */
  function FetchTopN(tickers: seq<string>, info: string -> Info, n: nat): (rows: seq<Row>)
    ensures |rows| == Min(n, |tickers|)
    ensures SortedByMcap(rows)
    ensures StablyReordered(Candidates(tickers, info, n), rows)
  {
    SortByMcapDesc(Candidates(tickers, info, n))
  }

  /** The rows of `tickers[:n]` in list order, before ranking. */
  function Candidates(tickers: seq<string>, info: string -> Info, n: nat): (rows: seq<Row>)
    ensures |rows| == Min(n, |tickers|)
    ensures forall i :: 0 <= i < |rows| ==>
      rows[i].ticker == tickers[i] && rows[i].sector == info(tickers[i]).sector && rows[i].mcap == info(tickers[i]).mcap
  {
    var k := Min(n, |tickers|);
    seq(k, i requires 0 <= i < k => Row(tickers[i], info(tickers[i]).sector, info(tickers[i]).mcap))
  }

  // ---------------------------------------------------------------------
  // Greedy, sector-capped selection
  // ---------------------------------------------------------------------

  /** Number of basket entries in sector `s`. */
  function SectorCount(basket: seq<Member>, s: string): nat
  {
    if |basket| == 0 then 0
    else SectorCount(basket[..|basket| - 1], s) + (if basket[|basket| - 1].sector == s then 1 else 0)
  }

  lemma SectorCountAppend(basket: seq<Member>, m: Member, s: string)
    ensures SectorCount(basket + [m], s) == SectorCount(basket, s) + (if m.sector == s then 1 else 0)
  {
  }

  /** The selection rule as a recursive definition: take rows in rank order,
      skip a row whose sector is full, stop once the basket is full. */
  function Greedy(rows: seq<Row>, basket: seq<Member>): seq<Member>
    decreases |rows|
  {
    if |rows| == 0 || |basket| == BasketSize then basket
    else if SectorCount(basket, rows[0].sector) >= MaxPerSector then Greedy(rows[1..], basket)
    else Greedy(rows[1..], basket + [MemberOf(rows[0])])
  }

  /** Entries of `counts`, absent sectors counting 0 (`dict.get(s, 0)`). */
  function CountOf(counts: map<string, nat>, s: string): nat
  {
    if s in counts then counts[s] else 0
  }

  /** `picked` lists, in increasing order, the rows before `i` that each
      basket entry was taken from. */
  ghost predicate PickedFrom(rows: seq<Row>, i: nat, basket: seq<Member>, picked: seq<nat>)
  {
    && |picked| == |basket|
    && (forall k :: 0 <= k < |picked| ==> picked[k] < i && picked[k] < |rows| && basket[k] == MemberOf(rows[picked[k]]))
    && (forall k, l :: 0 <= k < l < |picked| ==> picked[k] < picked[l])
  }

  /** Every row before `i` that was not picked belongs to a full sector. */
  ghost predicate SkippedFull(rows: seq<Row>, i: nat, basket: seq<Member>, picked: seq<nat>)
    requires i <= |rows|
  {
    forall r :: 0 <= r < i && r !in picked ==> SectorCount(basket, rows[r].sector) == MaxPerSector
  }

  ghost predicate Capped(basket: seq<Member>)
  {
    |basket| <= BasketSize && forall s :: SectorCount(basket, s) <= MaxPerSector
  }

  /** Skipping row `i` of a full sector keeps every invariant. */
  lemma SkipStep(rows: seq<Row>, i: nat, basket: seq<Member>, picked: seq<nat>)
    requires i < |rows| && |basket| < BasketSize
    requires PickedFrom(rows, i, basket, picked) && SkippedFull(rows, i, basket, picked) && Capped(basket)
    requires SectorCount(basket, rows[i].sector) >= MaxPerSector
    ensures PickedFrom(rows, i + 1, basket, picked) && SkippedFull(rows, i + 1, basket, picked)
    ensures Greedy(rows[i + 1..], basket) == Greedy(rows[i..], basket)
  {
    assert rows[i..][1..] == rows[i + 1..];
  }

  /** Taking row `i` of a sector that is not full keeps every invariant. */
  lemma TakeStep(rows: seq<Row>, i: nat, basket: seq<Member>, picked: seq<nat>)
    requires i < |rows| && |basket| < BasketSize
    requires PickedFrom(rows, i, basket, picked) && SkippedFull(rows, i, basket, picked) && Capped(basket)
    requires SectorCount(basket, rows[i].sector) < MaxPerSector
    ensures var b := basket + [MemberOf(rows[i])];
      && PickedFrom(rows, i + 1, b, picked + [i])
      && SkippedFull(rows, i + 1, b, picked + [i])
      && Capped(b)
      && Greedy(rows[i + 1..], b) == Greedy(rows[i..], basket)
  {
    var m := MemberOf(rows[i]);
    var b := basket + [m];
    var p := picked + [i];
    assert Greedy(rows[i + 1..], b) == Greedy(rows[i..], basket) by {
      assert rows[i..][1..] == rows[i + 1..];
    }
    forall s ensures SectorCount(b, s) == SectorCount(basket, s) + (if rows[i].sector == s then 1 else 0) {
      SectorCountAppend(basket, m, s);
    }
    TakePicked(rows, i, basket, picked);
    TakeSkipped(rows, i, basket, picked);
  }

  lemma TakePicked(rows: seq<Row>, i: nat, basket: seq<Member>, picked: seq<nat>)
    requires i < |rows| && PickedFrom(rows, i, basket, picked)
    ensures PickedFrom(rows, i + 1, basket + [MemberOf(rows[i])], picked + [i])
  {
    var b := basket + [MemberOf(rows[i])];
    var p := picked + [i];
    forall k | 0 <= k < |p| ensures p[k] < i + 1 && p[k] < |rows| && b[k] == MemberOf(rows[p[k]]) {
      if k < |picked| {
        assert p[k] == picked[k] && b[k] == basket[k];
      }
    }
  }

  lemma TakeSkipped(rows: seq<Row>, i: nat, basket: seq<Member>, picked: seq<nat>)
    requires i < |rows| && SkippedFull(rows, i, basket, picked)
    requires SectorCount(basket, rows[i].sector) < MaxPerSector
    ensures SkippedFull(rows, i + 1, basket + [MemberOf(rows[i])], picked + [i])
  {
    var b := basket + [MemberOf(rows[i])];
    var p := picked + [i];
    forall r | 0 <= r < i + 1 && r !in p ensures SectorCount(b, rows[r].sector) == MaxPerSector {
      assert r !in picked && r != i;
      SectorCountAppend(basket, MemberOf(rows[i]), rows[r].sector);
    }
  }

  /** Incrementing the entry of the new member's sector keeps `counts` equal
      to the per-sector counts of the basket (`sector_count`'s invariant). */
  lemma CountsStep(counts: map<string, nat>, basket: seq<Member>, m: Member)
    requires forall s :: CountOf(counts, s) == SectorCount(basket, s)
    ensures forall s :: CountOf(counts[m.sector := CountOf(counts, m.sector) + 1], s) == SectorCount(basket + [m], s)
  {
    forall s ensures CountOf(counts[m.sector := CountOf(counts, m.sector) + 1], s) == SectorCount(basket + [m], s) {
      SectorCountAppend(basket, m, s);
    }
  }

  /** `build_universe` on the ranked rows: the basket has at most 12
      entries and at most 4 per sector, is an order-preserving pick of the
      rows (`picked` gives the row each entry came from), and a row is left
      out of a basket that did not fill up only because its sector was
      full. */
  method BuildUniverse(rows: seq<Row>) returns (basket: seq<Member>, ghost picked: seq<nat>)
    ensures basket == Greedy(rows, [])
    ensures |basket| <= BasketSize
    ensures forall s :: SectorCount(basket, s) <= MaxPerSector
    ensures |picked| == |basket|
    ensures forall k :: 0 <= k < |picked| ==> picked[k] < |rows| && basket[k] == MemberOf(rows[picked[k]])
    ensures forall k, l :: 0 <= k < l < |picked| ==> picked[k] < picked[l]
    ensures |basket| < BasketSize ==>
      forall i :: 0 <= i < |rows| && i !in picked ==> SectorCount(basket, rows[i].sector) == MaxPerSector
  {
    basket := [];
    picked := [];
    var counts: map<string, nat> := map[];
    var i := 0;
    while i < |rows|
      invariant 0 <= i <= |rows|
      invariant Greedy(rows[i..], basket) == Greedy(rows, [])
      invariant forall s :: CountOf(counts, s) == SectorCount(basket, s)
      invariant Capped(basket)
      invariant PickedFrom(rows, i, basket, picked)
      invariant SkippedFull(rows, i, basket, picked)
    {
      if |basket| == BasketSize {
        break;
      }
      var sector := rows[i].sector;
      if CountOf(counts, sector) >= MaxPerSector {
        SkipStep(rows, i, basket, picked);
        i := i + 1;
        continue;
      }
      TakeStep(rows, i, basket, picked);
      CountsStep(counts, basket, MemberOf(rows[i]));
      basket := basket + [MemberOf(rows[i])];
      picked := picked + [i];
      counts := counts[sector := CountOf(counts, sector) + 1];
      i := i + 1;
    }
    Finish(rows, i, basket, picked);
  }

  /** What the invariants give once the loop has stopped, because the rows
      ran out or the basket filled up. */
  lemma Finish(rows: seq<Row>, i: nat, basket: seq<Member>, picked: seq<nat>)
    requires i <= |rows| && (i == |rows| || |basket| == BasketSize)
    requires Capped(basket) && PickedFrom(rows, i, basket, picked) && SkippedFull(rows, i, basket, picked)
    ensures forall k :: 0 <= k < |picked| ==> picked[k] < |rows| && basket[k] == MemberOf(rows[picked[k]])
    ensures |basket| < BasketSize ==>
      forall r :: 0 <= r < |rows| && r !in picked ==> SectorCount(basket, rows[r].sector) == MaxPerSector
  {
  }

  /** `build_universe`: the greedy pick over the top 200 list entries ranked
      by capitalisation. Every member is one of those entries, with the
      sector looked up for it. */
  method BuildUniverseFrom(tickers: seq<string>, info: string -> Info) returns (basket: seq<Member>)
    ensures basket == Greedy(FetchTopN(tickers, info, 200), [])
    ensures |basket| <= BasketSize
    ensures forall s :: SectorCount(basket, s) <= MaxPerSector
    ensures forall k :: 0 <= k < |basket| ==>
      basket[k].ticker in tickers[..Min(200, |tickers|)] && basket[k].sector == info(basket[k].ticker).sector
  {
    var candidates := Candidates(tickers, info, 200);
    var rows := FetchTopN(tickers, info, 200);
    ghost var picked;
    basket, picked := BuildUniverse(rows);
    forall k | 0 <= k < |basket|
      ensures basket[k].ticker in tickers[..Min(200, |tickers|)] && basket[k].sector == info(basket[k].ticker).sector
    {
      var row := rows[picked[k]];
      assert row in multiset(candidates) by {
        assert row in multiset(rows);
      }
      var i :| 0 <= i < |candidates| && candidates[i] == row;
      assert tickers[..Min(200, |tickers|)][i] == tickers[i];
    }
  }
}

=== FILE: wrappers.dfy ===
/** Failure-carrying values shared by every module of the model.
    `Option` stands for a cell that pandas would hold as NaN (`None`),
    `Result` for an operation that raises instead of returning. */
module Wrappers {

  datatype Option<+T> = None | Some(value: T) {

    /** The wrapped value, or `default` for a missing one (pandas `fillna`). */
    function GetOr(default: T): T {
      match this
      case Some(v) => v
      case None => default
    }
  }

  datatype Result<+T, +E> = Ok(value: T) | Err(error: E)
}
